=== FILE: README.md ===
# Attendance decision core, modelled in Dafny

This project models the backend core of a university attendance tracker. A
student's capture (photo, claimed identity, GPS reading) becomes an attendance
record through four steps:

- a face-verification verdict from a hosted generative model, which fails safe
  to "unverified";
- a planar geofence check;
- a time-window status policy (PRESENT / LATE / ABSENT);
- a keyed insert-or-update into the attendance collection.

The model also covers the second writer to that collection (manual marking by
faculty or admins), the counting rules of the statistics routes, the schema of
an attendance record, the bearer-token and role gates, and both
face-verification adapters. One adapter is in the backend; the other sits at
the repository root.

Everything is a pure function over immutable datatypes:

- the attendance collection is a `map` keyed by (studentId, courseId, date), so
  at most one record per key holds by construction;
- clocks, the environment, the generative-model call, `JSON.parse` and
  `jwt.verify` are parameters.

Modules, one per file:

| module | file | models |
|---|---|---|
| `Wrappers` | wrappers.dfy | `Option` / `Result` |
| `Text` | text.dfy | `indexOf`, `lastIndexOf`, `split`, `startsWith`, string order |
| `Arith` | arith.dfy | two facts about real multiplication |
| `DateKey` | date_key.dfy | `toISOString().split('T')[0]`, the `YYYY-MM-DD` key (ISO 8601 section 5.2.1.1) |
| `Auth` | auth.dfy | `authMiddleware`, `roleMiddleware` |
| `AttendanceSchema` | attendance_schema.dfy | enums, required fields, defaults |
| `Ledger` | ledger.dfy | the collection and its unique-key upsert |
| `Geofence` | geofence.dfy | the 50 m planar distance check |
| `Classifier` | classifier.dfy | the PRESENT / LATE / ABSENT policy |
| `Verdicts` | verdicts.dfy | the verdict shape, `??` defaults, the failure verdict |
| `BackendGemini` | backend_gemini.dfy | backend adapter and its lazy process-wide instance |
| `ClientGemini` | client_gemini.dfy | the root-level adapter, compared with the backend one |
| `AttendanceRoutes` | attendance_routes.dfy | `POST /verify`, `POST /mark`, the two listings |
| `AttendanceStats` | attendance_stats.dfy | `GET /stats/:courseId`, `GET /dashboard/stats` |

Modelling decisions:

- **Updates use `$set` semantics.** Both writers call `findOneAndUpdate` with a
  plain object, which Mongoose applies as `$set`. The model therefore replaces
  only the paths a writer lists. Unlisted paths keep their earlier values, or
  are absent on insert. So a manual mark keeps an earlier `confidenceScore`,
  and `imageUrl` is never touched by either writer. `Ledger.UnlistedScoreSurvives`
  and `AttendanceRoutes.ManualAfterFaceKeepsScore` state the consequence.
- **The geofence compares squares.** The model uses real arithmetic and tests
  `d² · 111320² < 50²` instead of `sqrt(d²) · 111320 < 50`.
  `Geofence.PlanarDistanceCriterion` proves the two tests agree for every
  non-negative square root.
- **Course start keeps the current milliseconds.** `setHours(h, m, 0)` leaves
  the millisecond field alone. The route reads the clock twice, once for `now`
  and once for the date it moves to the course start; the model takes both
  readings to be the same instant. Under that reading the elapsed time since
  the start is a whole number of seconds, and LATE begins at 15 min 1 s
  (`Classifier.LateFromWholeSecond`). See `Classifier.ElapsedMs` under
  "Left out" for what the second reading can change.
- **A verified, low-confidence capture stores ABSENT.** The route writes a
  record whenever the verdict is verified, whatever its confidence. The model
  follows the code here, which is narrower than "a record for every accepted
  check-in".

## Model

| member | source | states |
|---|---|---|
| Auth.BearerToken | backend/src/middleware/auth.ts:17 | the token is the text after `"Bearer "` up to the next space or the end; it holds no space and the header continues with a space or ends |
| Auth.BearerTokenOf | backend/src/middleware/auth.ts:17 | a header `"Bearer " + t + rest` with space-free `t` and `rest` empty or starting with a space yields exactly `t` |
| Auth.DoubleSpaceGivesEmptyToken | backend/src/middleware/auth.ts:17 | `"Bearer  …"` (double space) yields the empty token |
| Auth.Authenticate | backend/src/middleware/auth.ts:9-25 | `next` with the decoded payload iff the header starts with exactly `"Bearer "` and the token verifies; 401 "No token provided" iff the header is missing or has no bearer prefix; every refusal is 401 |
| Auth.RequireRole | backend/src/middleware/auth.ts:27-39 | `next` iff a user is present and their role is listed; no user → 401 "Not authenticated"; unlisted role → 403 "Access denied" |
| Auth.AuthenticateWithRole | backend/src/middleware/auth.ts:9-39 | a refusal by the token gate is passed on unchanged; a pass means the token gate passed with the same user and that user's role is listed; an authenticated user with an unlisted role gets 403 "Access denied" |
| Auth.RoleChainAdmits | backend/src/middleware/auth.ts:9-39 | the two gates in sequence admit exactly the requests whose token verifies to a listed role, handing on the decoded user |
| AttendanceSchema.ParseStatus | backend/src/models/Attendance.ts:23-27 | exactly PRESENT, LATE, ABSENT, EXCUSED are accepted, each naming its status |
| AttendanceSchema.ParseMethod | backend/src/models/Attendance.ts:28-32 | exactly AI_FACE, MANUAL, QR are accepted, each naming its method |
| AttendanceSchema.StatusNameRoundTrip | backend/src/models/Attendance.ts:23-27 | every status's stored name is accepted by the validator and names that status |
| AttendanceSchema.MethodNameRoundTrip | backend/src/models/Attendance.ts:28-32 | every method's stored name is accepted by the validator and names that method |
| AttendanceSchema.Materialize | backend/src/models/Attendance.ts:17-38 | a document is rejected iff a required path (studentId, courseId, date, verificationMethod) is missing or an enum value is unknown, with the failing paths; otherwise status defaults to PRESENT, geolocationVerified to false, timestamp to now, and the optional paths pass through |
| AttendanceSchema.MaterializeRoundTrip | backend/src/models/Attendance.ts:17-38 | a record written out as a document validates iff its required strings are non-empty, and then comes back unchanged |
| AttendanceSchema.DefaultsOnCreate | backend/src/models/Attendance.ts:22-33 | a document naming only the required paths gets status PRESENT, geolocationVerified false, timestamp now, no score, no image |
| Ledger.Upsert | backend/src/routes/attendance.ts:117-130 | afterwards the key holds one record filed under its own triple, carrying the update's status, method, geolocation flag and timestamp, its score if listed (else the earlier one), the earlier imageUrl; every other key is untouched and no key is removed |
| Ledger.Apply | backend/src/routes/attendance.ts:48-59 | the stored record is filed under the key; status, method, geolocation flag and timestamp come from the update; the score is the update's if it lists one, else the earlier record's, else none; the imageUrl is the earlier record's, none on insert |
| Ledger.UpsertCount | backend/src/models/Attendance.ts:40-41 | an upsert adds a record only for a new key: never two records per triple |
| Ledger.UpsertKeepsKeyed | backend/src/models/Attendance.ts:40-41 | upserts keep every record under its own (studentId, courseId, date) |
| Ledger.KeyedIsUnique | backend/src/models/Attendance.ts:40-41 | in a keyed ledger two entries whose records share a triple are the same entry |
| Ledger.UpsertIdempotent | backend/src/routes/attendance.ts:117-130 | repeating an upsert changes nothing more |
| Ledger.LatestWins | backend/src/routes/attendance.ts:117-130 | a second face-verification update for the same key leaves no trace of the first |
| Ledger.UnlistedScoreSurvives | backend/src/routes/attendance.ts:48-59 | a second update that does not list the score keeps the first update's score but takes the new status |
| Geofence.GeolocationVerified | backend/src/routes/attendance.ts:90-98 | true iff latitude and longitude are present and non-zero, the course has a location, and the squared planar distance to it, scaled by 111320 m per degree, is below 50 m squared |
| Geofence.GeofenceInMetres | backend/src/routes/attendance.ts:90-98 | with both coordinates truthy and a course location, the check passes iff `r · 111320 < 50` for the distance `r = sqrt(Δlat² + Δlng²)` |
| Geofence.PlanarDistanceCriterion | backend/src/routes/attendance.ts:92-97 | for `r = sqrt(Δlat² + Δlng²)`, `r · 111320 < 50` iff the squared test holds |
| Geofence.OutsideFails | backend/src/routes/attendance.ts:97 | at 50 m or farther the check fails; exactly 50 m is outside |
| Geofence.CloserPasses | backend/src/routes/attendance.ts:92-97 | a reading closer to the course than a passing one also passes |
| Geofence.ZeroCoordinateNeverPasses | backend/src/routes/attendance.ts:91 | standing on the registered point passes iff neither coordinate is exactly 0 |
| Classifier.ElapsedMs | backend/src/routes/attendance.ts:101-108 | the time since today's start is 1000 times the whole seconds of the day elapsed since `startHour:startMinute:00`, so a whole number of seconds, negative before the start |
| Classifier.Classify | backend/src/routes/attendance.ts:106-110 | never EXCUSED; ABSENT iff unverified or confidence ≤ 0.6; LATE iff verified, confidence > 0.6 and more than 900000 ms late; PRESENT otherwise |
| Classifier.LateFromWholeSecond | backend/src/routes/attendance.ts:103-109 | with an accepted verdict, LATE iff at least 15 min 1 s have passed since the start |
| Classifier.LateStaysLate | backend/src/routes/attendance.ts:101-109 | a later check-in on the same day is no less late: elapsed time grows with the clock, and LATE stays LATE for an accepted verdict |
| Classifier.Scenarios | backend/src/routes/attendance.ts:100-110 | start 09:00 and confidence 0.85: 09:10 PRESENT, 09:15 PRESENT, 09:20 LATE; confidence 0.5 is ABSENT at any time |
| Classifier.EarlyIsPresent | backend/src/routes/attendance.ts:108-109 | a check-in before the start is PRESENT |
| Verdicts.Unavailable | backend/src/services/geminiService.ts:69-76 | the failure verdict is unverified, confidence 0, no detected name |
| Verdicts.WithDefaults | backend/src/services/geminiService.ts:63-68 | verified only if the reply says true; missing confidence and message become 0 and "Analysis complete"; supplied values, confidence included, pass through unclamped |
| Verdicts.DefaultsKeepSuppliedFields | services/geminiService.ts:51-55 | a reply supplying every field yields exactly that verdict |
| Verdicts.DefaultsForEmptyReply | backend/src/services/geminiService.ts:63-68 | a reply with no fields yields unverified, 0, "Analysis complete", no name |
| Verdicts.ReadReply | backend/src/services/geminiService.ts:61-76 | a parse that throws, or a `null` result, gives the failure verdict; a parsed object gives its fields with the `??` defaults; any other parsed value has no fields and gives unverified, 0, "Analysis complete"; a verified verdict needs an object whose `verified` is true |
| Verdicts.BareVerifiedReply | backend/src/services/geminiService.ts:63-68 | `{"verified": true}` alone gives a verified verdict with confidence 0 and "Analysis complete" |
| BackendGemini.Construct | backend/src/services/geminiService.ts:7-14 | a model client exists iff the key is set and non-empty |
| BackendGemini.StripDataUrlPrefix | backend/src/services/geminiService.ts:29-31 | without a comma the input is unchanged; with one the payload is the comma-free text from just after the first comma to the next comma or the end |
| BackendGemini.FindJsonSpan | backend/src/services/geminiService.ts:56 | no span iff nothing matches `\{[\s\S]*\}`; otherwise the span matches, starts leftmost and is the longest match at that start |
| BackendGemini.JsonSpan | backend/src/services/geminiService.ts:56-61 | the extracted text runs from the first `{` of the reply to its last `}`, both included; there is none iff the reply lacks either brace or the last `}` comes before the first `{` |
| BackendGemini.JsonSpanExists | backend/src/services/geminiService.ts:56-59 | a span exists iff some `}` follows the first `{`; it is a piece of the reply |
| BackendGemini.SpanAt | backend/src/services/geminiService.ts:56-59 | when positions f < l hold the first `{` and the last `}`, the span is exactly the text from f to l |
| BackendGemini.SpanOfWrappedObject | backend/src/services/geminiService.ts:56 | text around the only braces is ignored: the span is the braces and what they enclose |
| BackendGemini.VerifyAttendance | backend/src/services/geminiService.ts:16-77 | without a client the not-configured verdict; a failing call or a reply without a span gives the failure verdict; a returned reply with a span gives the verdict read from parsing that span; a verified verdict needs a configured client |
| BackendGemini.ReplyPath | backend/src/services/geminiService.ts:52-76 | with a key and a returned reply holding a span: a parse that throws gives the failure verdict, a parsed object its fields with defaults, any other parsed value unverified with confidence 0 |
| BackendGemini.NoCallWithoutKey | backend/src/services/geminiService.ts:17-23 | without a key the verdict does not depend on the model call or the parser |
| BackendGemini.ReplyWithPreamble | backend/src/services/geminiService.ts:52-68 | a reply with prose around one fully supplied object yields that object's verdict |
| BackendGemini.GetService | backend/src/services/geminiService.ts:81-88 | a filled slot is returned unchanged; an empty one is filled with a service built from the current environment, counting one construction |
| BackendGemini.VerifyThroughSingleton | backend/src/services/geminiService.ts:90-94 | verification through the module object fills the slot exactly as `getGeminiService` does, and its verdict is that of the stored instance, or of a service built from the current environment when the slot was empty |
| BackendGemini.FilledSlotIsStable | backend/src/services/geminiService.ts:83-87 | once filled, any run of calls returns the same instance and builds nothing |
| BackendGemini.BuiltAtMostOnce | backend/src/services/geminiService.ts:80-88 | from an empty slot any run of calls builds exactly once, from the environment the first call sees, and every call gets that instance |
| ClientGemini.ApiKey | services/geminiService.ts:9 | the key is empty iff the variable is missing or empty |
| ClientGemini.StripDataUrlPrefix | services/geminiService.ts:22 | without a comma the input is unchanged; otherwise either the whole input or the non-empty backend payload |
| ClientGemini.ReplyText | services/geminiService.ts:50 | the parsed text is never empty and is the reply whenever the reply is non-empty |
| ClientGemini.VerifyAttendance | services/geminiService.ts:12-65 | a failing call gives the failure verdict; a returned reply gives the verdict read from parsing its text, `{}` when empty; a verified verdict needs a returned reply |
| ClientGemini.ReplyPath | services/geminiService.ts:48-64 | for a returned reply: a parse that throws gives the failure verdict, a parsed object its fields with defaults, any other parsed value unverified with confidence 0 |
| ClientGemini.AdaptersAgreeOnBareObject | services/geminiService.ts:22-56 | with a key, equal payloads and a reply that is one bare object, this adapter and the backend one give the same verdict |
| ClientGemini.PayloadsAgree | services/geminiService.ts:22 | the two adapters send the same payload iff it is not the case that the input has a comma and an empty second piece |
| ClientGemini.EmptyPayloadDataUrl | services/geminiService.ts:22 | on `"data:,"` the backend sends `""` and this adapter sends `"data:,"` |
| ClientGemini.EmptyReplyDefaults | services/geminiService.ts:50-56 | an empty reply is parsed as `{}` and yields unverified, 0, "Analysis complete" |
| ClientGemini.MissingKeyIsUnavailable | services/geminiService.ts:57-64 | with no key, a call rejecting the empty key surfaces only as the failure verdict |
| ClientGemini.SuppliedFieldsPassThrough | services/geminiService.ts:50-56 | supplied fields, `detectedName` included, come back as they are |
| DateKey.FormatDateKey | backend/src/routes/attendance.ts:115 | the date key holds no `T`; with a four-digit year it is ten characters with dashes at 4 and 7 |
| DateKey.DateKeyOfIsoString | backend/src/routes/attendance.ts:115 | `split('T')[0]` of an ISO timestamp is exactly its date key |
| DateKey.DigitsOrder | backend/src/routes/attendance.ts:187 | equal-width digit strings compare as strings exactly as their numbers compare |
| DateKey.DashedKeyOrder | backend/src/routes/attendance.ts:186-188 | keys joined from equal-width parts compare field by field: year first, then month, then day, and are equal iff every field is |
| DateKey.KeyOrderIsDateOrder | backend/src/routes/attendance.ts:186-188 | for four-digit years, string order of keys is chronological order and equal keys mean equal dates |
| AttendanceRoutes.Today | backend/src/routes/attendance.ts:176 | today's key is the date key of the clock's UTC date |
| AttendanceRoutes.VerifyAndMark | backend/src/routes/attendance.ts:70-143 | unknown student → 404 "Student not found", else unknown course → 404 "Course not found", neither writes; otherwise the response reports the verdict, the geofence result and the policy status; verified → upsert under today's key with AI_FACE and the record returned; unverified → ledger unchanged, no record |
| AttendanceRoutes.MarkDate | backend/src/routes/attendance.ts:46 | the body's date when non-empty, otherwise today's key |
| AttendanceRoutes.PostMark | backend/src/routes/attendance.ts:42-67 | a request the token or role gate refuses gets that gate's status and error and leaves the ledger unchanged; an admitted one is exactly the manual mark |
| AttendanceRoutes.PostVerify | backend/src/routes/attendance.ts:70-143 | a request without a verifying token gets the token gate's refusal and leaves the ledger unchanged; an admitted one is exactly the check-in |
| AttendanceRoutes.MarkManually | backend/src/routes/attendance.ts:42-67 | always writes (student, course, date): the key is added if new and no other key changes; the record gets the given status or PRESENT, MANUAL, geolocation false and the current time, keeps any earlier confidence score, and is returned |
| AttendanceRoutes.CourseRecords | backend/src/routes/attendance.ts:9-26 | exactly the stored records of the course, of the given day when a date is given |
| AttendanceRoutes.StudentRecords | backend/src/routes/attendance.ts:29-39 | exactly the stored records of the student |
| AttendanceRoutes.NoTraceWhenUnverified | backend/src/routes/attendance.ts:112-131 | an unverified capture is reported ABSENT with no record and the ledger unchanged |
| AttendanceRoutes.VerifiedAlwaysWrites | backend/src/routes/attendance.ts:112-131 | a verified capture adds or replaces exactly today's key with AI_FACE, the confidence, the timestamp, the reported status and geofence flag; confidence ≤ 0.6 stores ABSENT; other keys keep their records |
| AttendanceRoutes.StudentCheckedFirst | backend/src/routes/attendance.ts:75-84 | with both student and course unknown, the student error is reported and nothing is written |
| AttendanceRoutes.UnconfiguredServiceNeverMarks | backend/src/routes/attendance.ts:86-131 | with the backend adapter lacking a key, every check-in is ABSENT and writes nothing |
| AttendanceRoutes.HandlersKeepKeyed | backend/src/routes/attendance.ts:48-130 | both handlers keep every record under its own triple |
| AttendanceRoutes.WrittenRecordsPassSchema | backend/src/models/Attendance.ts:17-38 | records written by either handler (with non-empty ids) validate against the schema unchanged |
| AttendanceRoutes.ManualAfterFaceKeepsScore | backend/src/routes/attendance.ts:48-59 | a same-day manual mark after a face check replaces status, method and geolocation but keeps the face check's confidence score |
| AttendanceRoutes.MarkNeedsFacultyOrAdmin | backend/src/routes/attendance.ts:42 | a mark is made iff the bearer token verifies to FACULTY or ADMIN; otherwise a failure and the ledger unchanged |
| AttendanceRoutes.VerifyNeedsToken | backend/src/routes/attendance.ts:70 | without a valid bearer token the check-in is refused with 401 and nothing is written |
| AttendanceRoutes.MorningScenario | backend/src/routes/attendance.ts:100-131 | start 09:00, confidence 0.85: at 09:10 PRESENT with an AI_FACE record, at 09:20 LATE |
| AttendanceStats.StatusBreakdown | backend/src/routes/attendance.ts:150-158 | one entry per status that occurs in the course, holding its positive count |
| AttendanceStats.BreakdownSumsToTotal | backend/src/routes/attendance.ts:150-160 | the breakdown counts add up to the course's record total (of the model's breakdown; see "Left out") |
| AttendanceStats.TotalRecords | backend/src/routes/attendance.ts:160 | the course total is the number of stored records of the course: at most the ledger size, and zero iff no record names the course |
| AttendanceStats.TotalSessions | backend/src/routes/attendance.ts:161-166 | the number of distinct dates among the course's records, which never exceeds its record total |
| AttendanceStats.UpsertSessions | backend/src/routes/attendance.ts:161-166 | a mark adds one session to its course when no record of the course has its date yet and none otherwise; other courses' session counts do not change |
| AttendanceStats.SameDaySingleSession | backend/src/routes/attendance.ts:161-166 | a course whose records all fall on one day has exactly one session |
| AttendanceStats.SessionsBounded | backend/src/routes/attendance.ts:160-166 | distinct dates never exceed records, and are zero iff there are no records |
| AttendanceStats.TodayCounts | backend/src/routes/attendance.ts:179-181 | total is the number of records dated today, present and late the numbers of those with status PRESENT and LATE; present plus late never exceed the total |
| AttendanceStats.TodayCountsPartition | backend/src/routes/attendance.ts:179-181 | today's PRESENT, LATE, ABSENT and EXCUSED records together make up today's total |
| AttendanceStats.WeeklyKeys | backend/src/routes/attendance.ts:186-188 | the weekly records are exactly the stored records whose date text is at or after the cut-off key in code-point string order (`$gte`), whatever the date text; in particular every record dated on the cut-off day itself |
| AttendanceStats.UpsertWeeklyKeys | backend/src/routes/attendance.ts:186-188 | a mark joins the weekly window exactly when its date text is at or after the cut-off in string order, whatever that text is, and the rest of the window is unchanged |
| AttendanceStats.WeeklyRate | backend/src/routes/attendance.ts:184-192 | with weekly records, rate × weekly total = 100 × weekly PRESENT-or-LATE count; 0 without weekly records; always in [0, 100], and 100 iff every weekly record is PRESENT or LATE |
| AttendanceStats.WeeklyWindowIsChronological | backend/src/routes/attendance.ts:186-188 | for four-digit-year keys, the string filter keeps exactly the records on or after the cut-off day |
| AttendanceStats.IsDefaulter | backend/src/routes/attendance.ts:194-213 | a defaulter has records, and at least one of them is neither PRESENT nor LATE |
| AttendanceStats.DefaultersCount | backend/src/routes/attendance.ts:195-223 | the count is the number of students with records who satisfy the defaulter rule |
| AttendanceStats.DefaultersInWholeNumbers | backend/src/routes/attendance.ts:194-223 | the count is the number of students with records of whom 4 · (PRESENT + LATE) < 3 · total |
| AttendanceStats.DefaulterInWholeNumbers | backend/src/routes/attendance.ts:194-214 | a student is a defaulter iff they have records and 4 · (PRESENT + LATE) < 3 · total, the strict 75 % rule |
| AttendanceStats.DefaultersBounded | backend/src/routes/attendance.ts:195-223 | defaulters ≤ students with records ≤ records |

## Left out

- HTTP plumbing is not modelled: Express routing, JSON bodies, `populate` joins, and the `sort` order of the two listing routes. The listings are modelled as sets of records.
- Store failures are not modelled. Every `catch` that answers 500 is out, including `CastError` on a malformed id and an unreachable database. The model has no failing store.
- The atomicity of concurrent upserts is not modelled. It is the store's job, and the model is sequential.
- Floating point is not modelled. Coordinates, confidences and rates are `real`; `Math.sqrt` is replaced by squaring (see `Geofence.PlanarDistanceCriterion`). The `toFixed(1)` string of `weeklyRate` is omitted.
- Clock and timezone are not modelled. The clock is an input: the instant, the local time of day, and the UTC date. The route reads lateness in local time and the date key in UTC, and the model keeps these independent. Daylight-saving shifts are not modelled.
- Course start-time parsing is not modelled. The `"HH:MM"` text is taken as already split into hour and minute, so the `NaN` path of a malformed start time is not represented.
- `AttendanceRoutes.Course`: a course's location is optional here, because the route tests for it. The course schema itself requires it.
- Foreign calls are opaque parameters. These are the model call, `JSON.parse` and `jwt.verify` (which also covers a missing `JWT_SECRET`). Reply fields are typed, so a reply whose `verified` is, say, a string is not represented.
- The prompt text and model names sent to the model are omitted. They do not affect the post-processing.
- `ClientGemini.VerifyAttendance`: an undefined `response.text` is represented as the empty string. `||` treats the two alike.
- `ClientGemini.EmptyReplyDefaults` assumes that `JSON.parse('{}')` returns an object with no fields. The parser is otherwise opaque.
- `AttendanceRoutes.MarkManually` takes the body's status as one of the four enum values. A string outside the enum is left to the store, since update validators are off by default.
- AttendanceStats.StatusBreakdown: `Model.aggregate` does not cast the string `courseId` in its `$match` stage, so against stored `ObjectId` course ids the program's `statusBreakdown` is always empty, while `countDocuments` and `distinct` do cast and count. The model computes the evidently intended breakdown over records whose course equals the parameter, so `AttendanceStats.BreakdownSumsToTotal` holds of the model only.
- Student and course ids are modelled as plain strings, compared as text. The store casts them to `ObjectId` in every query: the `findOneAndUpdate` filters of both writers (attendance.ts:48-49 and :117-118), the `User.findById` and `Course.findById` lookups (:75, :81), and `countDocuments` and `distinct` (:160-161). That casting is not represented. An `ObjectId`'s hex text is case-insensitive, so two spellings of one id (say `507f1f77bcf86cd799439011` and `507F1F77BCF86CD799439011`) are one document in the store but two distinct ledger keys in the model, and `Ledger.UpsertCount` and `AttendanceStats.TotalRecords` then count two records where the store keeps one. A malformed id fails the cast with a `CastError`, which is among the store failures above.
- The lexicographic date filter is proved chronological only for four-digit years. `toISOString` writes other years in a signed six-digit form.
- The `createdAt` and `updatedAt` timestamps the schema adds are not modelled.
- Console logging is not modelled.
- Classifier.ElapsedMs: models the two clock readings (the one giving `now` and the one `setHours` is applied to) as one instant, so the start carries now's milliseconds. In the program the second reading can carry later milliseconds: with now at 09:15:00.999 and the start read at 09:15:01.000 for a 09:00 course, the elapsed time is 900999 ms and the check-in is LATE, where the model says PRESENT. `Classifier.LateFromWholeSecond` holds of the single-reading model only.
- `Auth.Authenticate`: "`next` is called exactly once" has no separate statement. A pure gate returns one outcome.

=== FILE: arith.dfy ===
/** Facts about real multiplication the solver does not find on its own. */
module Arith {

  lemma PositiveProduct(x: real, y: real)
    requires x > 0.0 && y > 0.0
    ensures x * y > 0.0
  {
  }

  /** Multiplying by a positive factor keeps strict order, both ways. */
  lemma ScaleLess(x: real, y: real, t: real)
    requires t > 0.0
    ensures x < y <==> x * t < y * t
  {
    assert y * t - x * t == (y - x) * t;
    if x < y {
      PositiveProduct(y - x, t);
    } else {
      assert x * t - y * t == (x - y) * t;
      if x > y {
        PositiveProduct(x - y, t);
      }
    }
  }
}

=== FILE: attendance_routes.dfy ===
/** The attendance routes that read and write the ledger: face verification
    and marking (`POST /verify`), manual marking (`POST /mark`), and the two
    record listings. Each handler is a function from the ledger and the request
    to the response and the ledger afterwards. */
module AttendanceRoutes {
  import opened Wrappers
  import opened Text
  import opened DateKey
  import opened AttendanceSchema
  import opened Ledger
  import opened Geofence
  import opened Classifier
  import opened Verdicts
  import opened Auth
  import BackendGemini

  /** What the routes read of a course: its start time, already split into hour
      and minute, and its registered location. */
  datatype Course = Course(startHour: int, startMinute: int, coordinates: Option<Coord>)

  /** One reading of `new Date()`: the instant, the local time of day in
      milliseconds, and the UTC calendar date and time-of-day text that
      `toISOString` prints. */
  datatype Clock = Clock(nowMs: int, localMsOfDay: nat, utcDate: Date, utcTimeOfDay: string)

  predicate ValidClock(c: Clock) {
    ValidDate(c.utcDate)
  }

  /** `new Date().toISOString().split('T')[0]`. */
  function Today(c: Clock): (key: string)
    requires ValidClock(c)
    ensures key == FormatDateKey(c.utcDate)
  {
    DateKeyOfIsoString(c.utcDate, c.utcTimeOfDay);
    DateKeyOfIso(IsoString(c.utcDate, c.utcTimeOfDay))
  }

  datatype VerifyRequest = VerifyRequest(
    studentId: StudentId, courseId: CourseId, imageBase64: string,
    latitude: Option<real>, longitude: Option<real>)

  /** A manual mark; a missing `status` or `date` is one the body left out
      (or gave as an empty string for the date). */
  datatype MarkRequest = MarkRequest(studentId: StudentId, courseId: CourseId, status: Option<Status>, date: Option<string>)

  datatype Response =
    | Failure(code: nat, error: string)
    | Marked(record: Record)
    | Checked(verification: Verdict, geolocationVerified: bool, attendance: Option<Record>, status: Status)

  const StudentNotFound: string := "Student not found"
  const CourseNotFound: string := "Course not found"

  /** The update the face-verification path writes. */
  function FaceUpdate(status: Status, geolocationVerified: bool, confidence: real, nowMs: int): Update {
    Update(status, AiFace, geolocationVerified, Some(confidence), nowMs)
  }

  /** The status of a check-in: the verdict and the local time since the course start. */
  function CheckInStatus(v: Verdict, course: Course, c: Clock): Status {
    Classify(v.verified, v.confidence, ElapsedMs(c.localMsOfDay, course.startHour, course.startMinute))
  }

  /** The `POST /verify` handler. `verifier` is the face-verification adapter,
      called with the image and the student's name. */
  function VerifyAndMark(l: Ledger, students: map<StudentId, string>, courses: map<CourseId, Course>,
                         req: VerifyRequest, c: Clock, verifier: (string, string) -> Verdict): (out: (Response, Ledger))
    requires ValidClock(c)
    ensures req.studentId !in students ==> out == (Failure(404, StudentNotFound), l)
    ensures req.studentId in students && req.courseId !in courses ==> out == (Failure(404, CourseNotFound), l)
    ensures req.studentId in students && req.courseId in courses ==>
      var v := verifier(req.imageBase64, students[req.studentId]);
      var course := courses[req.courseId];
      var key := (req.studentId, req.courseId, Today(c));
      && out.0.Checked?
      && out.0.verification == v
      && out.0.geolocationVerified == GeolocationVerified(req.latitude, req.longitude, course.coordinates)
      && out.0.status == CheckInStatus(v, course, c)
      && (v.verified ==> out.1 == Upsert(l, key, FaceUpdate(out.0.status, out.0.geolocationVerified, v.confidence, c.nowMs))
                         && out.0.attendance == Some(out.1[key]))
      && (!v.verified ==> out.1 == l && out.0.attendance.None?)
  {
    if req.studentId !in students then (Failure(404, StudentNotFound), l)
    else if req.courseId !in courses then (Failure(404, CourseNotFound), l)
    else
      var course := courses[req.courseId];
      var v := verifier(req.imageBase64, students[req.studentId]);
      var geo := GeolocationVerified(req.latitude, req.longitude, course.coordinates);
      var status := CheckInStatus(v, course, c);
      if v.verified then
        var key := (req.studentId, req.courseId, Today(c));
        var l' := Upsert(l, key, FaceUpdate(status, geo, v.confidence, c.nowMs));
        (Checked(v, geo, Some(l'[key]), status), l')
      else
        (Checked(v, geo, None, status), l)
  }

  /** The day a manual mark is filed under: the body's date when truthy, else today. */
  function MarkDate(req: MarkRequest, c: Clock): (date: string)
    requires ValidClock(c)
    ensures req.date.Some? && req.date.value != "" ==> date == req.date.value
    ensures req.date.None? || req.date.value == "" ==> date == FormatDateKey(c.utcDate)
  {
    if req.date.Some? && req.date.value != "" then req.date.value else Today(c)
  }

  /** The `POST /mark` handler: always writes, status PRESENT unless given,
      method MANUAL, geolocation unverified, score not listed. */
  function MarkManually(l: Ledger, req: MarkRequest, c: Clock): (out: (Response, Ledger))
    requires ValidClock(c)
    ensures var key := (req.studentId, req.courseId, MarkDate(req, c));
      && out.1 == Upsert(l, key, Update(req.status.GetOr(Present), Manual, false, None, c.nowMs))
      && out.0 == Marked(out.1[key])
    ensures var key := (req.studentId, req.courseId, MarkDate(req, c));
      && out.1.Keys == l.Keys + {key}
      && out.1[key].status == req.status.GetOr(Present)
      && out.1[key].verificationMethod == Manual && !out.1[key].geolocationVerified
      && out.1[key].timestamp == c.nowMs
      && out.1[key].confidenceScore == (if key in l then l[key].confidenceScore else None)
      && (forall k :: k in l && k != key ==> out.1[k] == l[k])
  {
    var key := (req.studentId, req.courseId, MarkDate(req, c));
    var l' := Upsert(l, key, Update(req.status.GetOr(Present), Manual, false, None, c.nowMs));
    (Marked(l'[key]), l')
  }

  /** The roles `roleMiddleware('FACULTY', 'ADMIN')` admits on `/mark`. */
  const MarkRoles: seq<string> := ["FACULTY", "ADMIN"]

  /** `POST /mark` with its gates: authenticated, then faculty or admin. */
  function PostMark(l: Ledger, header: Option<string>, verifyToken: string -> Option<Payload>,
                    req: MarkRequest, c: Clock): (out: (Response, Ledger))
    requires ValidClock(c)
    ensures var g := AuthenticateWithRole(header, verifyToken, MarkRoles);
      g.Reject? ==> out == (Failure(g.status, g.error), l)
    ensures AuthenticateWithRole(header, verifyToken, MarkRoles).Next? ==> out == MarkManually(l, req, c)
  {
    match AuthenticateWithRole(header, verifyToken, MarkRoles)
    case Reject(code, error) => (Failure(code, error), l)
    case Next(_) => MarkManually(l, req, c)
  }

  /** `POST /verify` with its gate: authenticated, any role. */
  function PostVerify(l: Ledger, header: Option<string>, verifyToken: string -> Option<Payload>,
                      students: map<StudentId, string>, courses: map<CourseId, Course>,
                      req: VerifyRequest, c: Clock, verifier: (string, string) -> Verdict): (out: (Response, Ledger))
    requires ValidClock(c)
    ensures var g := Authenticate(header, verifyToken);
      g.Reject? ==> out == (Failure(g.status, g.error), l)
    ensures Authenticate(header, verifyToken).Next? ==> out == VerifyAndMark(l, students, courses, req, c, verifier)
  {
    match Authenticate(header, verifyToken)
    case Reject(code, error) => (Failure(code, error), l)
    case Next(_) => VerifyAndMark(l, students, courses, req, c, verifier)
  }

  /** `GET /course/:courseId` (optionally `?date=`): the records of a course,
      of one day when the date is truthy. */
  function CourseRecords(l: Ledger, course: CourseId, date: Option<string>): (rs: set<Record>)
    requires Keyed(l)
    ensures forall r :: r in rs <==>
      KeyOf(r) in l && l[KeyOf(r)] == r && r.courseId == course &&
      (date.Some? && date.value != "" ==> r.date == date.value)
  {
    set k | k in l && k.1 == course && (date.Some? && date.value != "" ==> k.2 == date.value) :: l[k]
  }

  /** `GET /student/:studentId`: the records of a student. */
  function StudentRecords(l: Ledger, student: StudentId): (rs: set<Record>)
    requires Keyed(l)
    ensures forall r :: r in rs <==> KeyOf(r) in l && l[KeyOf(r)] == r && r.studentId == student
  {
    set k | k in l && k.0 == student :: l[k]
  }

  // ---------------------------------------------------------------------------
  // Properties of the handlers

  /** An unverified capture is reported but leaves the ledger as it was. */
  lemma NoTraceWhenUnverified(l: Ledger, students: map<StudentId, string>, courses: map<CourseId, Course>,
                              req: VerifyRequest, c: Clock, verifier: (string, string) -> Verdict)
    requires ValidClock(c)
    requires req.studentId in students && req.courseId in courses
    requires !verifier(req.imageBase64, students[req.studentId]).verified
    ensures var out := VerifyAndMark(l, students, courses, req, c, verifier);
      out.1 == l && out.0.Checked? && out.0.attendance.None? && out.0.status == Absent
  {
  }

  /** A verified capture writes one record, even with a low confidence, in which
      case the stored status is ABSENT. */
  lemma VerifiedAlwaysWrites(l: Ledger, students: map<StudentId, string>, courses: map<CourseId, Course>,
                             req: VerifyRequest, c: Clock, verifier: (string, string) -> Verdict)
    requires ValidClock(c)
    requires req.studentId in students && req.courseId in courses
    requires verifier(req.imageBase64, students[req.studentId]).verified
    ensures var out := VerifyAndMark(l, students, courses, req, c, verifier);
      var v := verifier(req.imageBase64, students[req.studentId]);
      var key := (req.studentId, req.courseId, FormatDateKey(c.utcDate));
      && key in out.1 && out.1.Keys == l.Keys + {key}
      && out.1[key].verificationMethod == AiFace
      && out.1[key].confidenceScore == Some(v.confidence)
      && out.1[key].timestamp == c.nowMs
      && out.1[key].status == out.0.status
      && out.1[key].geolocationVerified == out.0.geolocationVerified
      && (v.confidence <= AcceptanceFloor ==> out.1[key].status == Absent)
      && (forall k :: k in l && k != key ==> out.1[k] == l[k])
  {
  }

  /** An unknown student is reported before the course is looked up, and
      nothing is written either way. */
  lemma StudentCheckedFirst(l: Ledger, students: map<StudentId, string>, courses: map<CourseId, Course>,
                            req: VerifyRequest, c: Clock, verifier: (string, string) -> Verdict)
    requires ValidClock(c)
    requires req.studentId !in students && req.courseId !in courses
    ensures VerifyAndMark(l, students, courses, req, c, verifier) == (Failure(404, StudentNotFound), l)
  {
  }

  /** With the backend adapter and no key configured, a check-in never counts:
      the status is ABSENT and nothing is stored. */
  lemma UnconfiguredServiceNeverMarks(l: Ledger, students: map<StudentId, string>, courses: map<CourseId, Course>,
                                      req: VerifyRequest, c: Clock,
                                      generate: (string, string, string) -> CallOutcome,
                                      parse: string -> Option<JsonValue>)
    requires ValidClock(c)
    requires req.studentId in students && req.courseId in courses
    ensures var verifier := (image, name) => BackendGemini.VerifyAttendance(BackendGemini.Service(None), image, name, generate, parse);
      var out := VerifyAndMark(l, students, courses, req, c, verifier);
      out.1 == l && out.0.Checked? && out.0.status == Absent
  {
  }

  /** Both handlers keep every record under its own triple. */
  lemma HandlersKeepKeyed(l: Ledger, students: map<StudentId, string>, courses: map<CourseId, Course>,
                          vreq: VerifyRequest, mreq: MarkRequest, c: Clock, verifier: (string, string) -> Verdict)
    requires ValidClock(c) && Keyed(l)
    ensures Keyed(VerifyAndMark(l, students, courses, vreq, c, verifier).1)
    ensures Keyed(MarkManually(l, mreq, c).1)
  {
  }

  /** Records written by either handler satisfy the schema: written out as a
      document they validate and come back unchanged. */
  lemma WrittenRecordsPassSchema(l: Ledger, students: map<StudentId, string>, courses: map<CourseId, Course>,
                                 vreq: VerifyRequest, mreq: MarkRequest, c: Clock, verifier: (string, string) -> Verdict, now: int)
    requires ValidClock(c)
    requires vreq.studentId != "" && vreq.courseId != "" && mreq.studentId != "" && mreq.courseId != ""
    ensures var out := VerifyAndMark(l, students, courses, vreq, c, verifier);
      out.0.Checked? && out.0.attendance.Some? ==>
        Materialize(Dematerialize(out.0.attendance.value), now) == Ok(out.0.attendance.value)
    ensures var out := MarkManually(l, mreq, c);
      out.0.Marked? && Materialize(Dematerialize(out.0.record), now) == Ok(out.0.record)
  {
    var out := VerifyAndMark(l, students, courses, vreq, c, verifier);
    if out.0.Checked? && out.0.attendance.Some? {
      MaterializeRoundTrip(out.0.attendance.value, now);
    }
    MaterializeRoundTrip(MarkManually(l, mreq, c).0.record, now);
  }

  /** A manual mark after a face check on the same day replaces status, method
      and geolocation, but the earlier confidence score survives. */
  lemma ManualAfterFaceKeepsScore(l: Ledger, students: map<StudentId, string>, courses: map<CourseId, Course>,
                                  vreq: VerifyRequest, c: Clock, verifier: (string, string) -> Verdict,
                                  status: Status, c2: Clock)
    requires ValidClock(c) && ValidClock(c2) && c2.utcDate == c.utcDate
    requires vreq.studentId in students && vreq.courseId in courses
    requires verifier(vreq.imageBase64, students[vreq.studentId]).verified
    ensures var l1 := VerifyAndMark(l, students, courses, vreq, c, verifier).1;
      var l2 := MarkManually(l1, MarkRequest(vreq.studentId, vreq.courseId, Some(status), None), c2).1;
      var key := (vreq.studentId, vreq.courseId, FormatDateKey(c.utcDate));
      && l2.Keys == l1.Keys
      && l2[key].status == status && l2[key].verificationMethod == Manual && !l2[key].geolocationVerified
      && l2[key].confidenceScore == Some(verifier(vreq.imageBase64, students[vreq.studentId]).confidence)
  {
  }

  /** A request without a valid bearer token, or from a role other than faculty
      or admin, cannot mark: the ledger is unchanged. */
  lemma MarkNeedsFacultyOrAdmin(l: Ledger, header: Option<string>, verifyToken: string -> Option<Payload>,
                                req: MarkRequest, c: Clock)
    requires ValidClock(c)
    ensures var out := PostMark(l, header, verifyToken, req, c);
      out.0.Marked? <==>
        header.Some? && StartsWith(header.value, BearerPrefix) &&
        var p := verifyToken(BearerToken(header.value));
        p.Some? && (p.value.role == "FACULTY" || p.value.role == "ADMIN")
    ensures var out := PostMark(l, header, verifyToken, req, c);
      !out.0.Marked? ==> out.1 == l && out.0.Failure?
  {
    RoleChainAdmits(header, verifyToken, MarkRoles);
  }

  /** Any authenticated user may check in; without a valid token nothing is written. */
  lemma VerifyNeedsToken(l: Ledger, header: Option<string>, verifyToken: string -> Option<Payload>,
                         students: map<StudentId, string>, courses: map<CourseId, Course>,
                         req: VerifyRequest, c: Clock, verifier: (string, string) -> Verdict)
    requires ValidClock(c)
    requires header.None? || !StartsWith(header.value, BearerPrefix) || verifyToken(BearerToken(header.value)).None?
    ensures PostVerify(l, header, verifyToken, students, courses, req, c, verifier) == (Failure(401, if header.None? || !StartsWith(header.value, BearerPrefix) then NoToken else InvalidToken), l)
  {
  }

  /** Course at 09:00, check-in at 09:10 with confidence 0.85: PRESENT, stored
      with method AI_FACE; at 09:20: LATE. */
  lemma MorningScenario(l: Ledger, sid: StudentId, cid: CourseId, name: string, image: string,
                        coords: Option<Coord>, day: Date, ms: nat)
    requires ValidDate(day) && ms < 1000
    ensures var students := map[sid := name];
      var courses := map[cid := Course(9, 0, coords)];
      var verifier := (img: string, n: string) => Verdict(true, 0.85, "ok", None);
      var req := VerifyRequest(sid, cid, image, None, None);
      var at910 := VerifyAndMark(l, students, courses, req, Clock(0, 9 * 3600000 + 10 * 60000 + ms, day, ""), verifier);
      var at920 := VerifyAndMark(l, students, courses, req, Clock(0, 9 * 3600000 + 20 * 60000 + ms, day, ""), verifier);
      && at910.0.Checked? && at910.0.status == Present
      && at910.0.attendance.Some? && at910.0.attendance.value.verificationMethod == AiFace
      && at920.0.Checked? && at920.0.status == Late
  {
    Scenarios(ms, 0);
  }
}

=== FILE: attendance_schema.dfy ===
/** The attendance document schema: its two enumerations, its required and
    optional fields, and the defaults Mongoose fills in when a document is created. */
module AttendanceSchema {
  import opened Wrappers

  datatype Status = Present | Late | Absent | Excused
  datatype Method = AiFace | Manual | Qr

  /** Ids are the hexadecimal text of a store object id. */
  type StudentId = string
  type CourseId = string

  /** A stored attendance record. `date` is the `YYYY-MM-DD` day key and
      `timestamp` the instant of marking in milliseconds since the epoch. */
  datatype Record = Record(
    studentId: StudentId,
    courseId: CourseId,
    date: string,
    timestamp: int,
    status: Status,
    verificationMethod: Method,
    geolocationVerified: bool,
    confidenceScore: Option<real>,
    imageUrl: Option<string>)

  function StatusName(s: Status): string {
    match s
    case Present => "PRESENT"
    case Late => "LATE"
    case Absent => "ABSENT"
    case Excused => "EXCUSED"
  }

  /** The `enum` validator of `status`: only the four names are accepted. */
  function ParseStatus(name: string): (r: Option<Status>)
    ensures r.Some? ==> StatusName(r.value) == name
    ensures r.None? <==> name !in {"PRESENT", "LATE", "ABSENT", "EXCUSED"}
  {
    if name == "PRESENT" then Some(Present)
    else if name == "LATE" then Some(Late)
    else if name == "ABSENT" then Some(Absent)
    else if name == "EXCUSED" then Some(Excused)
    else None
  }

  function MethodName(m: Method): string {
    match m
    case AiFace => "AI_FACE"
    case Manual => "MANUAL"
    case Qr => "QR"
  }

  /** The `enum` validator of `verificationMethod`. */
  function ParseMethod(name: string): (r: Option<Method>)
    ensures r.Some? ==> MethodName(r.value) == name
    ensures r.None? <==> name !in {"AI_FACE", "MANUAL", "QR"}
  {
    if name == "AI_FACE" then Some(AiFace)
    else if name == "MANUAL" then Some(Manual)
    else if name == "QR" then Some(Qr)
    else None
  }

  /** Every status name parses back to its status. */
  lemma StatusNameRoundTrip(s: Status)
    ensures ParseStatus(StatusName(s)) == Some(s)
  {
  }

  /** Every method name parses back to its method. */
  lemma MethodNameRoundTrip(m: Method)
    ensures ParseMethod(MethodName(m)) == Some(m)
  {
  }

  /** A document as submitted for creation: every path may be missing. */
  datatype RawDocument = RawDocument(
    studentId: Option<string>,
    courseId: Option<string>,
    date: Option<string>,
    timestamp: Option<int>,
    status: Option<string>,
    verificationMethod: Option<string>,
    geolocationVerified: Option<bool>,
    confidenceScore: Option<real>,
    imageUrl: Option<string>)

  /** A `required` string path is satisfied by a present, non-empty value. */
  predicate Supplied(v: Option<string>) {
    v.Some? && v.value != ""
  }

  /** The paths whose validators reject the document. */
  function Violations(raw: RawDocument): set<string> {
    (if Supplied(raw.studentId) then {} else {"studentId"}) +
    (if Supplied(raw.courseId) then {} else {"courseId"}) +
    (if Supplied(raw.date) then {} else {"date"}) +
    (if raw.status.None? || ParseStatus(raw.status.value).Some? then {} else {"status"}) +
    (if raw.verificationMethod.Some? && ParseMethod(raw.verificationMethod.value).Some? then {} else {"verificationMethod"})
  }

  /** Creating a document: validation, then the defaults `status = PRESENT`,
      `geolocationVerified = false` and `timestamp = now`. */
  function Materialize(raw: RawDocument, now: int): (r: Result<Record, set<string>>)
    ensures r.Err? <==> Violations(raw) != {}
    ensures r.Err? ==> r.error == Violations(raw)
    ensures r.Ok? ==> raw.verificationMethod == Some(MethodName(r.value.verificationMethod))
    ensures r.Ok? ==> raw.status.None? ==> r.value.status == Present
    ensures r.Ok? ==> raw.status.Some? ==> raw.status.value == StatusName(r.value.status)
    ensures r.Ok? ==> r.value.geolocationVerified == raw.geolocationVerified.GetOr(false)
    ensures r.Ok? ==> r.value.timestamp == raw.timestamp.GetOr(now)
    ensures r.Ok? ==> r.value.confidenceScore == raw.confidenceScore && r.value.imageUrl == raw.imageUrl
    ensures r.Ok? ==> Valid(r.value)
  {
    var errors := Violations(raw);
    if errors != {} then Err(errors)
    else
      Ok(Record(
        raw.studentId.value,
        raw.courseId.value,
        raw.date.value,
        raw.timestamp.GetOr(now),
        if raw.status.None? then Present else ParseStatus(raw.status.value).value,
        ParseMethod(raw.verificationMethod.value).value,
        raw.geolocationVerified.GetOr(false),
        raw.confidenceScore,
        raw.imageUrl))
  }

  /** The required string paths of a record are non-empty. */
  predicate Valid(r: Record) {
    r.studentId != "" && r.courseId != "" && r.date != ""
  }

  /** A stored record written back out as a document with every path present. */
  function Dematerialize(r: Record): RawDocument {
    RawDocument(
      Some(r.studentId), Some(r.courseId), Some(r.date), Some(r.timestamp),
      Some(StatusName(r.status)), Some(MethodName(r.verificationMethod)),
      Some(r.geolocationVerified), r.confidenceScore, r.imageUrl)
  }

  /** Exactly the valid records survive being written out and validated again,
      unchanged, whatever the clock says. */
  lemma MaterializeRoundTrip(r: Record, now: int)
    ensures Materialize(Dematerialize(r), now).Ok? <==> Valid(r)
    ensures Valid(r) ==> Materialize(Dematerialize(r), now) == Ok(r)
  {
    StatusNameRoundTrip(r.status);
    MethodNameRoundTrip(r.verificationMethod);
  }

  /** A document that names only the required paths gets the schema defaults. */
  lemma DefaultsOnCreate(student: StudentId, course: CourseId, date: string, how: Method, now: int)
    requires student != "" && course != "" && date != ""
    ensures var raw := RawDocument(Some(student), Some(course), Some(date), None, None,
                                   Some(MethodName(how)), None, None, None);
      Materialize(raw, now) == Ok(Record(student, course, date, now, Present, how, false, None, None))
  {
    MethodNameRoundTrip(how);
  }
}

=== FILE: attendance_stats.dfy ===
/** The counting rules of the two statistics routes, over the ledger:
    per-course status breakdown, record and session totals (`GET /stats/:courseId`),
    and today's counts, the weekly attendance rate and the number of defaulters
    (`GET /dashboard/stats`). */
module AttendanceStats {
  import opened Text
  import opened DateKey
  import opened AttendanceSchema
  import opened Ledger
  import opened Arith

  const AllStatuses: seq<Status> := [Present, Late, Absent, Excused]

  /** Statuses that count as attending. */
  predicate Attended(s: Status) {
    s == Present || s == Late
  }

  // ---------------------------------------------------------------------------
  // GET /stats/:courseId

  function CourseKeys(l: Ledger, course: CourseId): set<Key> {
    set k | k in l && k.1 == course
  }

  function StatusKeys(l: Ledger, course: CourseId, s: Status): set<Key> {
    set k | k in l && k.1 == course && l[k].status == s
  }

  /** `$group` by status: one entry per status that occurs, with its count. */
  function StatusBreakdown(l: Ledger, course: CourseId): (m: map<Status, nat>)
    ensures forall s :: s in m <==> StatusKeys(l, course, s) != {}
    ensures forall s :: s in m ==> m[s] == |StatusKeys(l, course, s)| && m[s] > 0
  {
    map s | s in AllStatuses && StatusKeys(l, course, s) != {} :: |StatusKeys(l, course, s)|
  }

  /** `countDocuments({ courseId })`. */
  function TotalRecords(l: Ledger, course: CourseId): (n: nat)
    ensures n <= |l|
    ensures n == 0 <==> forall k :: k in l ==> k.1 != course
  {
    var ks := CourseKeys(l, course);
    assert l.Keys == ks + (l.Keys - ks);
    assert forall k :: k in l && k.1 == course ==> k in ks;
    |ks|
  }

  function DateOf(k: Key): string {
    k.2
  }

  function StudentOf(k: Key): StudentId {
    k.0
  }

  /** The distinct values `f` takes on `s`. */
  function Image<A, B>(s: set<A>, f: A -> B): set<B> {
    set x | x in s :: f(x)
  }

  /** `distinct('date', { courseId }).length`: the number of dates on which the
      course has a record. */
  function TotalSessions(l: Ledger, course: CourseId): (n: nat)
    ensures n == |set k | k in l && k.1 == course :: k.2|
    ensures n <= TotalRecords(l, course)
  {
    ImageNoLarger(CourseKeys(l, course), DateOf);
    SessionDates(l, course);
    |Image(CourseKeys(l, course), DateOf)|
  }

  /** The dates of a course's keys, written without `Image`. */
  lemma SessionDates(l: Ledger, course: CourseId)
    ensures Image(CourseKeys(l, course), DateOf) == set k | k in l && k.1 == course :: k.2
  {
    var dates := set k | k in l && k.1 == course :: k.2;
    forall d | d in dates
      ensures d in Image(CourseKeys(l, course), DateOf)
    {
      var k :| k in l && k.1 == course && k.2 == d;
      assert k in CourseKeys(l, course) && DateOf(k) == d;
    }
  }

  function CountIn(m: map<Status, nat>, s: Status): nat {
    if s in m then m[s] else 0
  }

  /** The breakdown's count for a status, zero when the status does not occur. */
  lemma CountInBreakdown(l: Ledger, course: CourseId, s: Status)
    ensures CountIn(StatusBreakdown(l, course), s) == |StatusKeys(l, course, s)|
  {
  }

  /** Four disjoint subsets that cover a set add up to its size. */
  lemma PartitionCount<T>(all: set<T>, p: set<T>, t: set<T>, a: set<T>, e: set<T>)
    requires p !! t && p !! a && p !! e && t !! a && t !! e && a !! e
    requires all == p + t + a + e
    ensures |all| == |p| + |t| + |a| + |e|
  {
    assert |p + t| == |p| + |t|;
    assert |p + t + a| == |p + t| + |a|;
  }

  /** Mapping a finite set never makes it larger. */
  lemma {:induction false} ImageNoLarger<A, B>(s: set<A>, f: A -> B)
    ensures |Image(s, f)| <= |s|
    decreases |s|
  {
    if s != {} {
      var x :| x in s;
      var rest := s - {x};
      ImageNoLarger(rest, f);
      assert Image(s, f) == Image(rest, f) + {f(x)};
    }
  }

  /** The breakdown counts add up to the course's total: every record has
      exactly one of the four statuses. */
  lemma BreakdownSumsToTotal(l: Ledger, course: CourseId)
    ensures var m := StatusBreakdown(l, course);
      CountIn(m, Present) + CountIn(m, Late) + CountIn(m, Absent) + CountIn(m, Excused) == TotalRecords(l, course)
  {
    var p, t, a, e := StatusKeys(l, course, Present), StatusKeys(l, course, Late),
                      StatusKeys(l, course, Absent), StatusKeys(l, course, Excused);
    forall k | k in CourseKeys(l, course)
      ensures k in p + t + a + e
    {
      match l[k].status
      case Present => assert k in p;
      case Late => assert k in t;
      case Absent => assert k in a;
      case Excused => assert k in e;
    }
    PartitionCount(CourseKeys(l, course), p, t, a, e);
    CountInBreakdown(l, course, Present);
    CountInBreakdown(l, course, Late);
    CountInBreakdown(l, course, Absent);
    CountInBreakdown(l, course, Excused);
  }

  /** A course whose records all fall on one day has held exactly one session. */
  lemma SameDaySingleSession(l: Ledger, course: CourseId, day: string)
    requires exists k :: k in l && k.1 == course
    requires forall k :: k in l && k.1 == course ==> k.2 == day
    ensures TotalSessions(l, course) == 1
  {
    var k :| k in l && k.1 == course;
    assert Image(CourseKeys(l, course), DateOf) == {day} by {
      assert DateOf(k) in Image(CourseKeys(l, course), DateOf);
    }
  }

  /** Adding one element grows the image by one exactly when its value is new. */
  lemma ImageAddOne<A, B>(s: set<A>, x: A, f: A -> B)
    ensures Image(s + {x}, f) == Image(s, f) + {f(x)}
    ensures |Image(s + {x}, f)| == if f(x) in Image(s, f) then |Image(s, f)| else |Image(s, f)| + 1
  {
    assert Image(s + {x}, f) == Image(s, f) + {f(x)};
  }

  /** The session count is the number of distinct dates of the course's keys. */
  lemma SessionsAreImage(l: Ledger, course: CourseId)
    ensures TotalSessions(l, course) == |Image(CourseKeys(l, course), DateOf)|
  {
  }

  /** An upsert adds its key to its own course and leaves every other course's keys alone. */
  lemma CourseKeysAfterUpsert(l: Ledger, k: Key, u: Update, c: CourseId)
    ensures CourseKeys(Upsert(l, k, u), c) == if c == k.1 then CourseKeys(l, c) + {k} else CourseKeys(l, c)
  {
  }

  /** A date is among a course's session dates exactly when some record of the
      course carries it. */
  lemma DateHasSession(l: Ledger, course: CourseId, d: string)
    ensures d in Image(CourseKeys(l, course), DateOf) <==> exists k :: k in l && k.1 == course && k.2 == d
  {
    if d in Image(CourseKeys(l, course), DateOf) {
      var k :| k in CourseKeys(l, course) && DateOf(k) == d;
      assert k in l && k.1 == course && k.2 == d;
    }
    if exists k :: k in l && k.1 == course && k.2 == d {
      var k :| k in l && k.1 == course && k.2 == d;
      assert k in CourseKeys(l, course) && DateOf(k) == d;
    }
  }

  /** A mark adds a session to its course exactly when no record of that course
      carries its date yet; every other course keeps its session count. */
  lemma UpsertSessions(l: Ledger, k: Key, u: Update)
    ensures var n := TotalSessions(l, k.1);
      TotalSessions(Upsert(l, k, u), k.1) ==
        if exists k' :: k' in l && k'.1 == k.1 && k'.2 == k.2 then n else n + 1
    ensures forall c :: c != k.1 ==> TotalSessions(Upsert(l, k, u), c) == TotalSessions(l, c)
  {
    var keys := CourseKeys(l, k.1);
    CourseKeysAfterUpsert(l, k, u, k.1);
    ImageAddOne(keys, k, DateOf);
    SessionsAreImage(l, k.1);
    SessionsAreImage(Upsert(l, k, u), k.1);
    DateHasSession(l, k.1, k.2);
    forall c | c != k.1
      ensures TotalSessions(Upsert(l, k, u), c) == TotalSessions(l, c)
    {
      CourseKeysAfterUpsert(l, k, u, c);
      SessionsAreImage(l, c);
      SessionsAreImage(Upsert(l, k, u), c);
    }
  }

  /** There are at most as many sessions as records, and sessions exactly when
      there are records. */
  lemma SessionsBounded(l: Ledger, course: CourseId)
    ensures TotalSessions(l, course) <= TotalRecords(l, course)
    ensures TotalSessions(l, course) == 0 <==> TotalRecords(l, course) == 0
  {
    var keys := CourseKeys(l, course);
    ImageNoLarger(keys, DateOf);
    if keys != {} {
      var k :| k in keys;
      assert DateOf(k) in Image(keys, DateOf);
    }
  }

  // ---------------------------------------------------------------------------
  // GET /dashboard/stats

  datatype DayCounts = DayCounts(present: nat, late: nat, total: nat)

  /** Today's records, over all courses, with status `s`. */
  function DayStatusKeys(l: Ledger, today: string, s: Status): set<Key> {
    set k | k in l && k.2 == today && l[k].status == s
  }

  /** `find({ date: today })` and its PRESENT and LATE filters, over all courses. */
  function TodayCounts(l: Ledger, today: string): (d: DayCounts)
    ensures d.total == |set k | k in l && k.2 == today|
    ensures d.present == |DayStatusKeys(l, today, Present)|
    ensures d.late == |DayStatusKeys(l, today, Late)|
    ensures d.present + d.late <= d.total
  {
    var all := set k | k in l && k.2 == today;
    var present := DayStatusKeys(l, today, Present);
    var late := DayStatusKeys(l, today, Late);
    assert present !! late && present + late <= all;
    assert all == (present + late) + (all - (present + late));
    DayCounts(|present|, |late|, |all|)
  }

  /** Today's PRESENT and LATE counts and today's ABSENT and EXCUSED records
      together make up today's total: every record has exactly one status. */
  lemma {:induction false} TodayCountsPartition(l: Ledger, today: string)
    ensures var d := TodayCounts(l, today);
      d.present + d.late + |DayStatusKeys(l, today, Absent)| + |DayStatusKeys(l, today, Excused)| == d.total
  {
    var all := set k | k in l && k.2 == today;
    var p, t, a, e := DayStatusKeys(l, today, Present), DayStatusKeys(l, today, Late),
                      DayStatusKeys(l, today, Absent), DayStatusKeys(l, today, Excused);
    forall k | k in all
      ensures k in p + t + a + e
    {
      match l[k].status
      case Present => assert k in p;
      case Late => assert k in t;
      case Absent => assert k in a;
      case Excused => assert k in e;
    }
    PartitionCount(all, p, t, a, e);
  }

  /** An upsert enters the weekly window exactly when its date text is at or
      after the cut-off, whatever that text is; the rest of the window stays. */
  lemma UpsertWeeklyKeys(l: Ledger, k: Key, u: Update, weekAgo: string)
    ensures WeeklyKeys(Upsert(l, k, u), weekAgo) ==
      if LessOrEqual(weekAgo, k.2) then WeeklyKeys(l, weekAgo) + {k} else WeeklyKeys(l, weekAgo)
  {
  }

  /** `date: { $gte: weekAgo }`: compared as strings. */
  function WeeklyKeys(l: Ledger, weekAgo: string): (ks: set<Key>)
    ensures ks <= l.Keys
    ensures forall k :: k in ks <==> k in l && LessOrEqual(weekAgo, k.2)
    ensures forall k :: k in l && k.2 == weekAgo ==> k in ks
  {
    LessOrEqualReflexive(weekAgo);
    set k | k in l && LessOrEqual(weekAgo, k.2)
  }

  function AttendedKeys(keys: set<Key>, l: Ledger): set<Key>
    requires keys <= l.Keys
  {
    set k | k in keys && Attended(l[k].status)
  }

  /** The weekly attendance rate in percent, before `toFixed(1)`: 0 without records. */
  function WeeklyRate(l: Ledger, weekAgo: string): (rate: real)
    ensures 0.0 <= rate <= 100.0
    ensures WeeklyKeys(l, weekAgo) == {} ==> rate == 0.0
    ensures rate == 100.0 <==>
      WeeklyKeys(l, weekAgo) != {} && forall k :: k in WeeklyKeys(l, weekAgo) ==> Attended(l[k].status)
    ensures WeeklyKeys(l, weekAgo) != {} ==>
      rate * (|WeeklyKeys(l, weekAgo)| as real) == 100.0 * (|AttendedKeys(WeeklyKeys(l, weekAgo), l)| as real)
  {
    var all := WeeklyKeys(l, weekAgo);
    AllAttended(all, l);
    Percent(|AttendedKeys(all, l)|, |all|)
  }

  /** `part / whole * 100`, and 0 for an empty whole. */
  function Percent(part: nat, whole: nat): (p: real)
    requires part <= whole
    ensures 0.0 <= p <= 100.0
    ensures whole == 0 ==> p == 0.0
    ensures whole > 0 ==> (p == 100.0 <==> part == whole)
    ensures p * (whole as real) == 100.0 * (part as real)
  {
    if whole > 0 then
      RatioPercentBounds(part, whole);
      (part as real) / (whole as real) * 100.0
    else 0.0
  }

  /** The attended keys are some of the keys, and all of them exactly when every
      key's status is PRESENT or LATE. */
  lemma AllAttended(keys: set<Key>, l: Ledger)
    requires keys <= l.Keys
    ensures |AttendedKeys(keys, l)| <= |keys|
    ensures |AttendedKeys(keys, l)| == |keys| <==> forall k :: k in keys ==> Attended(l[k].status)
  {
    var attended := AttendedKeys(keys, l);
    assert keys == attended + (keys - attended);
    if |attended| == |keys| {
      assert |keys - attended| == 0;
    }
  }

  /** A share of at most the whole is at most 100 percent, and exactly 100 only
      when it is the whole. */
  lemma RatioPercentBounds(part: nat, whole: nat)
    requires 0 < whole && part <= whole
    ensures 0.0 <= (part as real) / (whole as real) * 100.0 <= 100.0
    ensures (part as real) / (whole as real) * 100.0 == 100.0 <==> part == whole
    ensures (part as real) / (whole as real) * 100.0 * (whole as real) == 100.0 * (part as real)
  {
    var q, w := (part as real) / (whole as real), whole as real;
    assert q * w == part as real;
    ScaleLess(q, 1.0, w);
    ScaleLess(1.0, q, w);
    ScaleLess(q, 0.0, w);
  }

  /** For records whose keys are four-digit-year dates, the string filter keeps
      exactly the records on or after the cut-off day. */
  lemma WeeklyWindowIsChronological(l: Ledger, weekAgo: Date, k: Key, day: Date)
    requires ValidDate(weekAgo) && FourDigitYear(weekAgo) && ValidDate(day) && FourDigitYear(day)
    requires k in l && k.2 == FormatDateKey(day)
    ensures k in WeeklyKeys(l, FormatDateKey(weekAgo)) <==> DateLe(weekAgo, day)
  {
    KeyOrderIsDateOrder(weekAgo, day);
  }

  /** Students that have at least one record (the `$group` by `studentId`). */
  function Students(l: Ledger): set<StudentId> {
    Image(l.Keys, StudentOf)
  }

  function StudentKeys(l: Ledger, s: StudentId): set<Key> {
    set k | k in l && k.0 == s
  }

  /** The defaulter rule: an attendance rate `present / total * 100` strictly below 75. */
  predicate IsDefaulter(l: Ledger, s: StudentId)
    ensures IsDefaulter(l, s) ==> s in Students(l)
    ensures IsDefaulter(l, s) ==> exists k :: k in StudentKeys(l, s) && !Attended(l[k].status)
  {
    var all := StudentKeys(l, s);
    var attended := AttendedKeys(all, l);
    if |all| > 0 then
      assert s in Students(l) by {
        var k :| k in all;
        assert StudentOf(k) == s && k in l.Keys;
      }
      assert (forall k :: k in all ==> Attended(l[k].status)) ==> attended == all;
      (|attended| as real) / (|all| as real) * 100.0 < 75.0
    else false
  }

  /** `defaultersCount`: the students with records whose rate is below 75. */
  function DefaultersCount(l: Ledger): (n: nat)
    ensures n == |set s | s in Students(l) && IsDefaulter(l, s)|
    ensures n <= |Students(l)|
  {
    var d := set s | s in Students(l) && IsDefaulter(l, s);
    assert Students(l) == d + (Students(l) - d);
    |d|
  }

  /** The defaulter rule in whole numbers: fewer than three quarters of the
      student's records are PRESENT or LATE. */
  lemma DefaulterInWholeNumbers(l: Ledger, s: StudentId)
    ensures var all := StudentKeys(l, s);
      IsDefaulter(l, s) <==> |all| > 0 && 4 * |AttendedKeys(all, l)| < 3 * |all|
  {
    var all := StudentKeys(l, s);
    if |all| > 0 {
      RateBelowThreeQuarters(|AttendedKeys(all, l)|, |all|);
    }
  }

  /** `n / m * 100 < 75` on reals is `4n < 3m` on whole numbers. */
  lemma RateBelowThreeQuarters(n: nat, m: nat)
    requires m > 0
    ensures (n as real) / (m as real) * 100.0 < 75.0 <==> 4 * n < 3 * m
  {
    var a, t := n as real, m as real;
    var q := a / t;
    assert q * t == a;
    ScaleLess(q * 100.0, 75.0, t);
    assert q * 100.0 * t == 100.0 * a;
    assert 100.0 * a < 75.0 * t <==> 4.0 * a < 3.0 * t;
    assert (4 * n) as real == 4.0 * a && (3 * m) as real == 3.0 * t;
  }

  /** The defaulter count in whole numbers: the students with records of whom
      fewer than three quarters are PRESENT or LATE. */
  lemma DefaultersInWholeNumbers(l: Ledger)
    ensures DefaultersCount(l) ==
      |set s | s in Students(l) && 4 * |AttendedKeys(StudentKeys(l, s), l)| < 3 * |StudentKeys(l, s)| |
  {
    forall s | s in Students(l)
      ensures IsDefaulter(l, s) <==> 4 * |AttendedKeys(StudentKeys(l, s), l)| < 3 * |StudentKeys(l, s)|
    {
      DefaulterInWholeNumbers(l, s);
      var k :| k in l.Keys && StudentOf(k) == s;
      assert k in StudentKeys(l, s);
    }
    assert (set s | s in Students(l) && IsDefaulter(l, s)) ==
           (set s | s in Students(l) && 4 * |AttendedKeys(StudentKeys(l, s), l)| < 3 * |StudentKeys(l, s)|);
  }

  /** Every student with records is counted at most once, so there are no more
      defaulters than records. */
  lemma DefaultersBounded(l: Ledger)
    ensures DefaultersCount(l) <= |Students(l)| <= |l|
  {
    ImageNoLarger(l.Keys, StudentOf);
  }
}

=== FILE: auth.dfy ===
/** The request gates of the backend: `authMiddleware`, which accepts a request
    carrying `Authorization: Bearer <token>` (the header form of section 2.1 of
    RFC 6750) whose token verifies, and `roleMiddleware`, which admits only the
    listed roles. Token verification (`jwt.verify` with the server secret) is an
    opaque parameter. */
module Auth {
  import opened Wrappers
  import opened Text

  /** The claims a verified token carries. */
  datatype Payload = Payload(userId: string, email: string, role: string)

  /** What a gate does with a request: answer it with an error, or call `next`
      with the authenticated user attached to the request. */
  datatype Gate = Reject(status: nat, error: string) | Next(user: Payload)

  /** The authentication scheme and the prefix it makes: the scheme and one space. */
  const BearerScheme: string := "Bearer"
  const BearerPrefix: string := BearerScheme + " "
  const NoToken: string := "No token provided"
  const InvalidToken: string := "Invalid token"
  const NotAuthenticated: string := "Not authenticated"
  const AccessDenied: string := "Access denied"

  /** `authHeader.split(' ')[1]` for a header that starts with the bearer prefix. */
  function BearerToken(header: string): (token: string)
    requires StartsWith(header, BearerPrefix)
    ensures token == UpTo(header[|BearerPrefix|..], ' ')
    ensures ' ' !in token
    ensures StartsWith(header, BearerPrefix + token)
    ensures |header| == |BearerPrefix + token| || header[|BearerPrefix + token|] == ' '
  {
    var rest := header[|BearerPrefix|..];
    assert header == BearerScheme + [' '] + rest;
    IndexOfAfterFreePrefix(BearerScheme, ' ', rest);
    SecondSegment(header, ' ');
    UpToIsLongestFreePrefix(rest, ' ');
    var token := Segment(header, ' ', 1).value;
    assert header[..|BearerPrefix + token|] == BearerPrefix + token;
    token
  }

  /** `authMiddleware`: a missing header, or one that does not start with exactly
      `"Bearer "`, is refused before any verification; otherwise the token
      decides. */
  function Authenticate(header: Option<string>, verify: string -> Option<Payload>): (g: Gate)
    ensures g.Next? <==>
      header.Some? && StartsWith(header.value, BearerPrefix) && verify(BearerToken(header.value)).Some?
    ensures g.Next? ==> g.user == verify(BearerToken(header.value)).value
    ensures g.Reject? ==> g.status == 401
    ensures g == Reject(401, NoToken) <==> header.None? || !StartsWith(header.value, BearerPrefix)
  {
    if header.None? || !StartsWith(header.value, BearerPrefix) then Reject(401, NoToken)
    else
      match verify(BearerToken(header.value))
      case None => Reject(401, InvalidToken)
      case Some(p) => Next(p)
  }

  /** `roleMiddleware(...roles)`: needs an authenticated user whose role is listed. */
  function RequireRole(user: Option<Payload>, roles: seq<string>): (g: Gate)
    ensures g.Next? <==> user.Some? && user.value.role in roles
    ensures g.Next? ==> g.user == user.value
    ensures user.None? ==> g == Reject(401, NotAuthenticated)
    ensures user.Some? && user.value.role !in roles ==> g == Reject(403, AccessDenied)
  {
    if user.None? then Reject(401, NotAuthenticated)
    else if user.value.role !in roles then Reject(403, AccessDenied)
    else Next(user.value)
  }

  /** The chain `authMiddleware, roleMiddleware(...roles)` as registered on a route. */
  function AuthenticateWithRole(header: Option<string>, verify: string -> Option<Payload>, roles: seq<string>): (g: Gate)
    ensures Authenticate(header, verify).Reject? ==> g == Authenticate(header, verify)
    ensures g.Next? ==> Authenticate(header, verify).Next? && g.user == Authenticate(header, verify).user && g.user.role in roles
    ensures Authenticate(header, verify).Next? && Authenticate(header, verify).user.role !in roles ==> g == Reject(403, AccessDenied)
  {
    match Authenticate(header, verify)
    case Reject(s, e) => Reject(s, e)
    case Next(p) => RequireRole(Some(p), roles)
  }

  /** The token is exactly the text after `"Bearer "` up to the next space: a header
      `"Bearer " + t` with a space-free `t` yields `t`, and anything after a further
      space is ignored. */
  lemma BearerTokenOf(token: string, rest: string)
    requires ' ' !in token
    requires rest == [] || rest[0] == ' '
    ensures StartsWith(BearerPrefix + token + rest, BearerPrefix)
    ensures BearerToken(BearerPrefix + token + rest) == token
  {
    var h := BearerPrefix + token + rest;
    assert h[..|BearerPrefix|] == BearerPrefix;
    assert h[|BearerPrefix|..] == token + rest;
    if rest == [] {
      assert token + rest == token;
      assert IndexOf(token, ' ').None?;
    } else {
      assert token + rest == token + [' '] + rest[1..];
      IndexOfAfterFreePrefix(token, ' ', rest[1..]);
      assert (token + rest)[..|token|] == token;
    }
  }

  /** A double space after `Bearer` yields the empty token, which then faces
      verification like any other. */
  lemma DoubleSpaceGivesEmptyToken(rest: string)
    ensures StartsWith("Bearer  " + rest, BearerPrefix)
    ensures BearerToken("Bearer  " + rest) == ""
  {
    assert "Bearer  " + rest == BearerPrefix + "" + (" " + rest);
    BearerTokenOf("", " " + rest);
  }

  /** A request passes `authMiddleware` followed by `roleMiddleware(...roles)`
      exactly when its bearer token verifies to a user whose role is listed;
      the user handed on is the decoded one. */
  lemma {:induction false} RoleChainAdmits(header: Option<string>, verify: string -> Option<Payload>, roles: seq<string>)
    ensures var g := AuthenticateWithRole(header, verify, roles);
      g.Next? <==>
        header.Some? && StartsWith(header.value, BearerPrefix) &&
        var p := verify(BearerToken(header.value));
        p.Some? && p.value.role in roles
    ensures var g := AuthenticateWithRole(header, verify, roles);
      g.Next? ==> g.user == verify(BearerToken(header.value)).value
    ensures var g := AuthenticateWithRole(header, verify, roles);
      g.Reject? ==> g.status == 401 || g == Reject(403, AccessDenied)
  {
    var a := Authenticate(header, verify);
    if a.Next? {
      var _ := RequireRole(Some(a.user), roles);
    }
  }
}

=== FILE: backend_gemini.dfy ===
/** The backend face-verification adapter: the service object built from the
    `GEMINI_API_KEY` environment variable, its `verifyAttendance` (payload
    extraction, reply-span extraction, defaulting, degrade-on-error) and the lazily
    built process-wide instance. */
module BackendGemini {
  import opened Wrappers
  import opened Text
  import opened Verdicts

  /** The service: the key its model client was built with, if one was set. */
  datatype Service = Service(genAI: Option<string>)

  const NotConfiguredMessage: string := "AI service not configured. Please set GEMINI_API_KEY."

  /** The constructor: a client is built only for a truthy (non-empty) key. */
  function Construct(env: Option<string>): (s: Service)
    ensures s.genAI.Some? <==> env.Some? && env.value != ""
    ensures s.genAI.Some? ==> s.genAI == env
  {
    if env.Some? && env.value != "" then Service(Some(env.value)) else Service(None)
  }

  /** The image payload sent to the model: with a comma in the input, the text
      strictly between the first comma and the next one (possibly empty); with
      none, the whole input. This drops a `data:[mediatype][;base64],` header as
      described in section 3 of RFC 2397. */
  function StripDataUrlPrefix(image: string): (payload: string)
    ensures ',' !in image ==> payload == image
    ensures ',' in image ==>
      var i := IndexOf(image, ',').value;
      ',' !in payload && i + 1 + |payload| <= |image| && image[i + 1..i + 1 + |payload|] == payload &&
      (i + 1 + |payload| == |image| || image[i + 1 + |payload|] == ',')
  {
    SecondSegment(image, ',');
    if ',' in image then
      var i := IndexOf(image, ',').value;
      UpToIsLongestFreePrefix(image[i + 1..], ',');
      Segment(image, ',', 1).value
    else image
  }

  /** A match of `\{[\s\S]*\}` spanning `s[i..j]`: an opening brace, anything,
      a closing brace. */
  predicate MatchesAt(s: string, i: int, j: int) {
    0 <= i && i + 2 <= j <= |s| && s[i] == '{' && s[j - 1] == '}'
  }

  /** The span `text.match(/\{[\s\S]*\}/)` finds: the leftmost start, and the
      longest match there (the greedy `*`). */
  function FindJsonSpan(text: string): (r: Option<(nat, nat)>)
    ensures r.None? <==> forall i, j :: !MatchesAt(text, i, j)
    ensures r.Some? ==> MatchesAt(text, r.value.0, r.value.1)
    ensures r.Some? ==> forall i, j :: MatchesAt(text, i, j) ==>
      r.value.0 <= i && (i == r.value.0 ==> j <= r.value.1)
  {
    match IndexOf(text, '{')
    case None =>
      None
    case Some(f) =>
      match LastIndexOf(text, '}')
      case None =>
        None
      case Some(l) =>
        if l > f then
          assert MatchesAt(text, f, l + 1);
          Some((f, l + 1))
        else
          None
  }

  /** `jsonMatch[0]`, the matched text. */
  function JsonSpan(text: string): (span: Option<string>)
    ensures span.Some? ==> |span.value| >= 2 && span.value[0] == '{' && span.value[|span.value| - 1] == '}'
    ensures span.Some? ==>
      && IndexOf(text, '{').Some? && LastIndexOf(text, '}').Some?
      && IndexOf(text, '{').value < LastIndexOf(text, '}').value
      && span.value == text[IndexOf(text, '{').value..LastIndexOf(text, '}').value + 1]
    ensures span.None? ==>
      IndexOf(text, '{').None? || LastIndexOf(text, '}').None? || LastIndexOf(text, '}').value < IndexOf(text, '{').value
  {
    match FindJsonSpan(text)
    case None => None
    case Some((i, j)) => Some(text[i..j])
  }

  /** A match exists exactly when a closing brace follows the first opening one;
      it is a piece of the reply. */
  lemma JsonSpanExists(text: string)
    ensures JsonSpan(text).Some? <==>
      '{' in text && exists k :: IndexOf(text, '{').value < k < |text| && text[k] == '}'
    ensures JsonSpan(text).Some? ==> exists i, j :: 0 <= i <= j <= |text| && JsonSpan(text).value == text[i..j]
  {
    if '{' in text {
      var f := IndexOf(text, '{').value;
      if k :| f < k < |text| && text[k] == '}' {
        assert MatchesAt(text, f, k + 1);
      }
    }
  }

  /** `verifyAttendance(imageBase64, studentName)`. `generate` is the model call
      with the client's key, the payload and the student's name. */
  function VerifyAttendance(svc: Service, image: string, name: string,
                            generate: (string, string, string) -> CallOutcome,
                            parse: string -> Option<JsonValue>): (v: Verdict)
    ensures svc.genAI.None? ==> v == Verdict(false, 0.0, NotConfiguredMessage, None)
    ensures svc.genAI.Some? && generate(svc.genAI.value, StripDataUrlPrefix(image), name).CallFailed? ==>
      v == Unavailable()
    ensures svc.genAI.Some? ==>
      var out := generate(svc.genAI.value, StripDataUrlPrefix(image), name);
      out.CallReturned? && FindJsonSpan(out.text).None? ==> v == Unavailable()
    ensures svc.genAI.Some? ==>
      var out := generate(svc.genAI.value, StripDataUrlPrefix(image), name);
      out.CallReturned? && JsonSpan(out.text).Some? ==> v == ReadReply(parse(JsonSpan(out.text).value))
    ensures v.verified ==> svc.genAI.Some?
  {
    if svc.genAI.None? then Verdict(false, 0.0, NotConfiguredMessage, None)
    else
      match generate(svc.genAI.value, StripDataUrlPrefix(image), name)
      case CallFailed => Unavailable()
      case CallReturned(text) =>
        match JsonSpan(text)
        case None => Unavailable()
        case Some(span) => ReadReply(parse(span))
  }

  /** Once a configured call returns a reply with a span, a span the parser
      rejects gives the unavailable verdict, and a parsed object gives its
      fields with the `??` defaults, whichever fields it supplies. */
  lemma ReplyPath(key: string, image: string, name: string,
                  generate: (string, string, string) -> CallOutcome, parse: string -> Option<JsonValue>)
    ensures var out := generate(key, StripDataUrlPrefix(image), name);
      var v := VerifyAttendance(Service(Some(key)), image, name, generate, parse);
      out.CallReturned? && JsonSpan(out.text).Some? ==>
        var parsed := parse(JsonSpan(out.text).value);
        && (parsed.None? ==> v == Unavailable())
        && (parsed.Some? && parsed.value.JsonObject? ==> v == WithDefaults(parsed.value.fields))
        && (parsed.Some? && !parsed.value.JsonObject? ==> !v.verified && v.confidence == 0.0)
  {
  }

  /** Without a key the model is never consulted: the verdict is the same
      whatever the model and the parser would have done. */
  lemma NoCallWithoutKey(image: string, name: string,
                         g1: (string, string, string) -> CallOutcome, g2: (string, string, string) -> CallOutcome,
                         p1: string -> Option<JsonValue>, p2: string -> Option<JsonValue>)
    ensures VerifyAttendance(Service(None), image, name, g1, p1) == VerifyAttendance(Service(None), image, name, g2, p2)
  {
  }

  /** A span from an opening brace with none before it to a closing brace
      with none after it is the extracted span. */
  lemma {:induction false} SpanAt(text: string, f: nat, l: nat)
    requires f < l < |text| && text[f] == '{' && text[l] == '}'
    requires '{' !in text[..f] && '}' !in text[l + 1..]
    ensures JsonSpan(text) == Some(text[f..l + 1])
  {
    assert text[f] in text[..f + 1];
    assert text[l] in text[l..];
    assert forall k :: 0 <= k < f ==> text[..f][k] == text[k];
    assert forall k :: l < k < |text| ==> text[l + 1..][k - l - 1] == text[k];
  }

  /** Text around the only braces of a reply is ignored: the span is the braces
      and what they enclose. */
  lemma {:induction false} SpanOfWrappedObject(before: string, body: string, after: string)
    requires '{' !in before && '}' !in after
    ensures JsonSpan(before + "{" + body + "}" + after) == Some("{" + body + "}")
  {
    var text := before + "{" + body + "}" + after;
    var f, l := |before|, |before| + |body| + 1;
    assert text[..f] == before;
    assert text[l + 1..] == after;
    assert text[f..l + 1] == "{" + body + "}";
    SpanAt(text, f, l);
  }

  /** A reply whose braces enclose a fully supplied object yields that object's
      verdict, whatever text surrounds it. */
  lemma ReplyWithPreamble(key: string, image: string, name: string, before: string, body: string, after: string,
                          generate: (string, string, string) -> CallOutcome, parse: string -> Option<JsonValue>, v: Verdict)
    requires key != ""
    requires '{' !in before && '}' !in after
    requires generate(key, StripDataUrlPrefix(image), name) == CallReturned(before + "{" + body + "}" + after)
    requires parse("{" + body + "}") == Some(JsonObject(FieldsOf(v)))
    ensures VerifyAttendance(Service(Some(key)), image, name, generate, parse) == v
  {
    SpanOfWrappedObject(before, body, after);
    DefaultsKeepSuppliedFields(v);
  }

  /** The module-level slot `_geminiService` and how often it was filled. */
  datatype Registry = Registry(instance: Option<Service>, constructions: nat)

  /** `getGeminiService()`: builds the service on first use only, reading the
      environment at that moment. */
  function GetService(reg: Registry, env: Option<string>): (r: (Service, Registry))
    ensures reg.instance.Some? ==> r == (reg.instance.value, reg)
    ensures reg.instance.None? ==> r.0 == Construct(env) && r.1 == Registry(Some(r.0), reg.constructions + 1)
  {
    match reg.instance
    case Some(s) => (s, reg)
    case None =>
      var s := Construct(env);
      (s, Registry(Some(s), reg.constructions + 1))
  }

  /** `geminiService.verifyAttendance`: fetch the shared instance, then verify. */
  function VerifyThroughSingleton(reg: Registry, env: Option<string>, image: string, name: string,
                                  generate: (string, string, string) -> CallOutcome,
                                  parse: string -> Option<JsonValue>): (r: (Verdict, Registry))
    ensures r.1 == GetService(reg, env).1
    ensures r.0 == VerifyAttendance(GetService(reg, env).0, image, name, generate, parse)
    ensures reg.instance.None? ==> r.0 == VerifyAttendance(Construct(env), image, name, generate, parse)
    ensures reg.instance.Some? ==> r.0 == VerifyAttendance(reg.instance.value, image, name, generate, parse)
  {
    var (svc, reg') := GetService(reg, env);
    (VerifyAttendance(svc, image, name, generate, parse), reg')
  }

  /** The services handed out by successive calls of `getGeminiService`, each
      seeing the environment value listed for it. */
  function GetServices(reg: Registry, envs: seq<Option<string>>): (r: (seq<Service>, Registry))
    ensures |r.0| == |envs|
    decreases |envs|
  {
    if |envs| == 0 then ([], reg)
    else
      var (s, reg1) := GetService(reg, envs[0]);
      var (rest, reg2) := GetServices(reg1, envs[1..]);
      ([s] + rest, reg2)
  }

  /** Once the slot is filled, every later call returns that instance and builds nothing. */
  lemma {:induction false} FilledSlotIsStable(s: Service, n: nat, envs: seq<Option<string>>)
    ensures GetServices(Registry(Some(s), n), envs).1 == Registry(Some(s), n)
    ensures forall i :: 0 <= i < |envs| ==> GetServices(Registry(Some(s), n), envs).0[i] == s
    decreases |envs|
  {
    if |envs| > 0 {
      FilledSlotIsStable(s, n, envs[1..]);
    }
  }

  /** From an empty slot, any run of calls builds the service exactly once, from
      the environment seen by the first call, and hands out that one instance. */
  lemma BuiltAtMostOnce(envs: seq<Option<string>>)
    requires |envs| > 0
    ensures GetServices(Registry(None, 0), envs).1.constructions == 1
    ensures forall i :: 0 <= i < |envs| ==> GetServices(Registry(None, 0), envs).0[i] == Construct(envs[0])
  {
    FilledSlotIsStable(Construct(envs[0]), 1, envs[1..]);
  }
}

=== FILE: classifier.dfy ===
/** The time-window status policy of the face-verification route: ABSENT unless
    the verdict is verified with confidence above 0.6, then LATE when more than
    15 minutes have passed since today's scheduled start, else PRESENT. */
module Classifier {
  import opened AttendanceSchema

  const AcceptanceFloor: real := 0.6
  const LateAfterMinutes: real := 15.0
  const MsPerMinute: int := 60000
  const MsPerHour: int := 3600000

  /** Milliseconds from today's scheduled start to now, both local times of day.
      `setHours(h, m, 0)` sets hours, minutes and seconds but keeps the
      milliseconds of the clock reading it was applied to; that reading is taken
      to be the same instant as `now`, so the start carries now's millisecond
      field and the result is the whole seconds since the start minute. */
  function ElapsedMs(nowMsOfDay: nat, startHour: int, startMinute: int): (e: int)
    ensures e % 1000 == 0
    ensures e == 1000 * (nowMsOfDay / 1000 - 3600 * startHour - 60 * startMinute)
  {
    var courseStart := startHour * MsPerHour + startMinute * MsPerMinute + nowMsOfDay % 1000;
    nowMsOfDay - courseStart
  }

  /** The status for a verdict and the time elapsed since the start. */
  function Classify(verified: bool, confidence: real, elapsedMs: int): (s: Status)
    ensures s != Excused
    ensures s == Absent <==> !verified || confidence <= AcceptanceFloor
    ensures s == Late <==> verified && confidence > AcceptanceFloor && elapsedMs > 900000
    ensures s == Present <==> verified && confidence > AcceptanceFloor && elapsedMs <= 900000
  {
    if verified && confidence > AcceptanceFloor then
      var diffMinutes := (elapsedMs as real) / (MsPerMinute as real);
      if diffMinutes > LateAfterMinutes then Late else Present
    else Absent
  }

  /** With the start carrying now's milliseconds, lateness is decided in whole
      seconds: LATE exactly from 15 minutes and 1 second after the start. */
  lemma LateFromWholeSecond(nowMsOfDay: nat, startHour: int, startMinute: int, confidence: real)
    requires confidence > AcceptanceFloor
    ensures var e := ElapsedMs(nowMsOfDay, startHour, startMinute);
      Classify(true, confidence, e) == Late <==> e >= 901000
  {
  }

  /** The clock only moves forward through the policy: a later check-in never
      has less elapsed time, so once LATE an accepted check-in stays LATE. */
  lemma LateStaysLate(earlier: nat, later: nat, startHour: int, startMinute: int, confidence: real)
    requires earlier <= later && confidence > AcceptanceFloor
    ensures ElapsedMs(earlier, startHour, startMinute) <= ElapsedMs(later, startHour, startMinute)
    ensures Classify(true, confidence, ElapsedMs(earlier, startHour, startMinute)) == Late ==>
            Classify(true, confidence, ElapsedMs(later, startHour, startMinute)) == Late
  {
    assert earlier == 1000 * (earlier / 1000) + earlier % 1000;
    assert later == 1000 * (later / 1000) + later % 1000;
  }

  /** Course at 09:00, verified with confidence 0.85: at 09:10 PRESENT, at 09:20
      LATE, exactly at 09:15 PRESENT; with confidence 0.5 ABSENT at any time. */
  lemma Scenarios(ms: nat, anyTime: nat)
    requires ms < 1000
    ensures Classify(true, 0.85, ElapsedMs(9 * 3600000 + 10 * 60000 + ms, 9, 0)) == Present
    ensures Classify(true, 0.85, ElapsedMs(9 * 3600000 + 20 * 60000 + ms, 9, 0)) == Late
    ensures Classify(true, 0.85, ElapsedMs(9 * 3600000 + 15 * 60000 + ms, 9, 0)) == Present
    ensures Classify(true, 0.5, ElapsedMs(anyTime, 9, 0)) == Absent
  {
  }

  /** An early check-in (negative elapsed time) is PRESENT. */
  lemma EarlyIsPresent(confidence: real, elapsedMs: int)
    requires confidence > AcceptanceFloor && elapsedMs < 0
    ensures Classify(true, confidence, elapsedMs) == Present
  {
  }
}

=== FILE: client_gemini.dfy ===
/** The second face-verification adapter (the service module at the repository
    root): the key falls back to the empty string, the payload falls back to the
    whole input when its second comma piece is empty, the model returns JSON
    directly, and an empty reply is read as `{}`. */
module ClientGemini {
  import opened Wrappers
  import opened Text
  import opened Verdicts
  import BackendGemini

  /** `process.env.API_KEY || ''`: there is always a key, possibly empty. */
  function ApiKey(env: Option<string>): (key: string)
    ensures key == "" <==> env.None? || env.value == ""
    ensures key != "" ==> env == Some(key)
  {
    if env.Some? && env.value != "" then env.value else ""
  }

  /** `imageBase64.split(',')[1] || imageBase64`: the second comma piece when it
      exists and is non-empty, otherwise the whole input. */
  function StripDataUrlPrefix(image: string): (payload: string)
    ensures ',' !in image ==> payload == image
    ensures payload == image || (',' in image && payload != "" && payload == BackendGemini.StripDataUrlPrefix(image))
  {
    SecondSegment(image, ',');
    match Segment(image, ',', 1)
    case Some(p) => if p != "" then p else image
    case None => image
  }

  /** The text the reply is parsed from: `response.text || '{}'` (a missing text
      is represented by the empty string, which `||` treats alike). */
  function ReplyText(text: string): (t: string)
    ensures t != ""
    ensures text != "" ==> t == text
  {
    if text == "" then "{}" else text
  }

  /** `verifyAttendance(imageBase64, studentName)`: every failure of the call or
      of parsing becomes the unavailable verdict; there is no separate
      not-configured verdict. */
  function VerifyAttendance(key: string, image: string, name: string,
                            generate: (string, string, string) -> CallOutcome,
                            parse: string -> Option<JsonValue>): (v: Verdict)
    ensures generate(key, StripDataUrlPrefix(image), name).CallFailed? ==> v == Unavailable()
    ensures v.verified ==> generate(key, StripDataUrlPrefix(image), name).CallReturned?
    ensures var out := generate(key, StripDataUrlPrefix(image), name);
      out.CallReturned? ==> v == ReadReply(parse(ReplyText(out.text)))
  {
    match generate(key, StripDataUrlPrefix(image), name)
    case CallFailed => Unavailable()
    case CallReturned(text) => ReadReply(parse(ReplyText(text)))
  }

  /** Once the call returns, the whole reply (or `{}` for an empty one) is
      parsed: a parse that throws gives the unavailable verdict, and a parsed
      object gives its fields with the `??` defaults, whichever it supplies. */
  lemma ReplyPath(key: string, image: string, name: string,
                  generate: (string, string, string) -> CallOutcome, parse: string -> Option<JsonValue>)
    ensures var out := generate(key, StripDataUrlPrefix(image), name);
      var v := VerifyAttendance(key, image, name, generate, parse);
      out.CallReturned? ==>
        var parsed := parse(ReplyText(out.text));
        && (parsed.None? ==> v == Unavailable())
        && (parsed.Some? && parsed.value.JsonObject? ==> v == WithDefaults(parsed.value.fields))
        && (parsed.Some? && !parsed.value.JsonObject? ==> !v.verified && v.confidence == 0.0)
  {
  }

  /** When both adapters send the same payload, have a key, and the model
      returns a bare JSON object, they reach the same verdict: the backend's
      span extraction then takes the whole reply. */
  lemma AdaptersAgreeOnBareObject(key: string, image: string, name: string, body: string,
                                  generate: (string, string, string) -> CallOutcome, parse: string -> Option<JsonValue>)
    requires key != ""
    requires StripDataUrlPrefix(image) == BackendGemini.StripDataUrlPrefix(image)
    requires generate(key, StripDataUrlPrefix(image), name) == CallReturned("{" + body + "}")
    ensures VerifyAttendance(key, image, name, generate, parse) ==
            BackendGemini.VerifyAttendance(BackendGemini.Service(Some(key)), image, name, generate, parse)
  {
    var reply := "{" + body + "}";
    assert "" + "{" + body + "}" + "" == reply;
    BackendGemini.SpanOfWrappedObject("", body, "");
  }

  /** The two adapters send the same payload except when the input has a comma
      and nothing between its first and second comma: then the backend sends the
      empty text and this adapter the whole input. */
  lemma PayloadsAgree(image: string)
    ensures StripDataUrlPrefix(image) == BackendGemini.StripDataUrlPrefix(image) <==>
      !(',' in image && BackendGemini.StripDataUrlPrefix(image) == "")
  {
    SecondSegment(image, ',');
  }

  /** The data URL with an empty payload tells the adapters apart. */
  lemma EmptyPayloadDataUrl()
    ensures BackendGemini.StripDataUrlPrefix("data:,") == ""
    ensures StripDataUrlPrefix("data:,") == "data:,"
  {
    var image := "data:,";
    assert image == "data:" + [','] + "";
    IndexOfAfterFreePrefix("data:", ',', "");
    assert image[6..] == "";
  }

  /** An empty reply is parsed as `{}` and, given that `JSON.parse('{}')` is an
      object with no fields, yields unverified, zero confidence, "Analysis complete". */
  lemma EmptyReplyDefaults(key: string, image: string, name: string,
                           generate: (string, string, string) -> CallOutcome, parse: string -> Option<JsonValue>)
    requires generate(key, StripDataUrlPrefix(image), name) == CallReturned("")
    requires parse("{}") == Some(JsonObject(NoFields))
    ensures VerifyAttendance(key, image, name, generate, parse) == Verdict(false, 0.0, DefaultMessage, None)
  {
    DefaultsForEmptyReply();
  }

  /** A missing key surfaces only through the catch block: if the model call
      rejects the empty key, the verdict is the unavailable one. */
  lemma MissingKeyIsUnavailable(image: string, name: string,
                                generate: (string, string, string) -> CallOutcome, parse: string -> Option<JsonValue>)
    requires forall p, n :: generate("", p, n) == CallFailed
    ensures VerifyAttendance(ApiKey(None), image, name, generate, parse) == Unavailable()
  {
  }

  /** A supplied reply object comes back field for field, `detectedName` included. */
  lemma SuppliedFieldsPassThrough(key: string, image: string, name: string,
                                  generate: (string, string, string) -> CallOutcome, parse: string -> Option<JsonValue>,
                                  text: string, v: Verdict)
    requires generate(key, StripDataUrlPrefix(image), name) == CallReturned(text)
    requires text != "" && parse(text) == Some(JsonObject(FieldsOf(v)))
    ensures VerifyAttendance(key, image, name, generate, parse) == v
  {
    DefaultsKeepSuppliedFields(v);
  }
}

=== FILE: date_key.dfy ===
/** The calendar-date key of an attendance record: the `YYYY-MM-DD` part of
    `Date.prototype.toISOString()` (the calendar-date form of section 5.2.1.1 of
    ISO 8601), obtained in the routes as `toISOString().split('T')[0]`. */
module DateKey {
  import opened Text

  /** A proleptic Gregorian calendar date, as seen in UTC. */
  datatype Date = Date(year: int, month: int, day: int)

  /** The years a JavaScript `Date` can hold, with a real month and day. */
  predicate ValidDate(d: Date) {
    -271821 <= d.year <= 275760 && 1 <= d.month <= 12 && 1 <= d.day <= 31
  }

  /** Years written with four plain digits; outside them `toISOString` switches
      to the expanded six-digit form with a sign. */
  predicate FourDigitYear(d: Date) {
    0 <= d.year <= 9999
  }

  function Pow10(w: nat): (p: nat)
    ensures p >= 1
  {
    if w == 0 then 1 else 10 * Pow10(w - 1)
  }

  function DigitChar(d: int): (c: char)
    requires 0 <= d < 10
    ensures '0' <= c <= '9'
  {
    ('0' as int + d) as char
  }

  /** The last `w` decimal digits of `n`, most significant first, zero padded. */
  function Digits(n: nat, w: nat): (s: string)
    ensures |s| == w
    ensures forall i :: 0 <= i < |s| ==> '0' <= s[i] <= '9'
  {
    if w == 0 then [] else Digits(n / 10, w - 1) + [DigitChar(n % 10)]
  }

  /** The year field of `toISOString`: four digits, or a sign and six digits. */
  function FormatYear(y: int): string
    requires -999999 <= y <= 999999
  {
    if 0 <= y <= 9999 then Digits(y, 4)
    else if y < 0 then "-" + Digits(-y, 6)
    else "+" + Digits(y, 6)
  }

  /** The `YYYY-MM-DD` key of a date. */
  function FormatDateKey(d: Date): (key: string)
    requires ValidDate(d)
    ensures 'T' !in key
    ensures |key| >= 10
    ensures FourDigitYear(d) ==> |key| == 10 && key[4] == '-' && key[7] == '-'
  {
    FormatYear(d.year) + "-" + Digits(d.month, 2) + "-" + Digits(d.day, 2)
  }

  /** `toISOString()`: the date key, a `T`, then the time of day (which holds no `T`). */
  function IsoString(d: Date, timeOfDay: string): string
    requires ValidDate(d)
  {
    FormatDateKey(d) + "T" + timeOfDay
  }

  /** `iso.split('T')[0]`, the expression every route uses to derive a date key. */
  function DateKeyOfIso(iso: string): string {
    Split(iso, 'T')[0]
  }

  /** Chronological order on dates. */
  predicate DateLe(a: Date, b: Date) {
    a.year < b.year || (a.year == b.year && (a.month < b.month || (a.month == b.month && a.day <= b.day)))
  }

  /** `split('T')[0]` recovers exactly the calendar-date key from an ISO timestamp,
      whatever the time-of-day part. */
  lemma DateKeyOfIsoString(d: Date, timeOfDay: string)
    requires ValidDate(d)
    ensures DateKeyOfIso(IsoString(d, timeOfDay)) == FormatDateKey(d)
  {
    var key := FormatDateKey(d);
    IndexOfAfterFreePrefix(key, 'T', timeOfDay);
    assert (key + "T" + timeOfDay)[..|key|] == key;
  }

  /** On equal-width digit strings, string order and string equality are numeric
      order and numeric equality. */
  lemma {:induction false} DigitsOrder(a: nat, b: nat, w: nat)
    requires a < Pow10(w) && b < Pow10(w)
    ensures LessOrEqual(Digits(a, w), Digits(b, w)) <==> a <= b
    ensures Digits(a, w) == Digits(b, w) <==> a == b
  {
    if w > 0 {
      DigitsOrder(a / 10, b / 10, w - 1);
      LessOrEqualConcat(Digits(a / 10, w - 1), [DigitChar(a % 10)], Digits(b / 10, w - 1), [DigitChar(b % 10)]);
    }
  }

  /** Two `Y-M-D` texts with equal-width year and month parts compare field by
      field: year first, then month, then day; and they are equal exactly when
      every field is. */
  lemma DashedKeyOrder(ya: string, ma: string, da: string, yb: string, mb: string, db: string)
    requires |ya| == |yb| && |ma| == |mb|
    ensures LessOrEqual(ya + "-" + ma + "-" + da, yb + "-" + mb + "-" + db) <==>
      if ya != yb then LessOrEqual(ya, yb) else if ma != mb then LessOrEqual(ma, mb) else LessOrEqual(da, db)
    ensures ya + "-" + ma + "-" + da == yb + "-" + mb + "-" + db <==> ya == yb && ma == mb && da == db
  {
    LessOrEqualReflexive("-");
    // The key is (year + "-" + month + "-") + day; peel off the day, then the
    // trailing dash, then the month, then the dash after the year.
    LessOrEqualConcat(ya + "-" + ma + "-", da, yb + "-" + mb + "-", db);
    LessOrEqualConcat(ya + "-" + ma, "-", yb + "-" + mb, "-");
    LessOrEqualConcat(ya + "-", ma, yb + "-", mb);
    LessOrEqualConcat(ya, "-", yb, "-");
  }

  /** With a four-digit year the key is the three zero-padded fields joined by dashes. */
  lemma FourDigitKey(d: Date)
    requires ValidDate(d) && FourDigitYear(d)
    ensures FormatDateKey(d) == Digits(d.year, 4) + "-" + Digits(d.month, 2) + "-" + Digits(d.day, 2)
  {
  }

  /** For dates with four-digit years, comparing the keys as strings (what the
      store does for `date: { $gte: ... }`) is comparing the dates in time. */
  lemma KeyOrderIsDateOrder(a: Date, b: Date)
    requires ValidDate(a) && ValidDate(b) && FourDigitYear(a) && FourDigitYear(b)
    ensures LessOrEqual(FormatDateKey(a), FormatDateKey(b)) <==> DateLe(a, b)
    ensures FormatDateKey(a) == FormatDateKey(b) <==> a == b
  {
    FourDigitKey(a);
    FourDigitKey(b);
    DigitsOrder(a.year, b.year, 4);
    DigitsOrder(a.month, b.month, 2);
    DigitsOrder(a.day, b.day, 2);
    DashedKeyOrder(Digits(a.year, 4), Digits(a.month, 2), Digits(a.day, 2),
                   Digits(b.year, 4), Digits(b.month, 2), Digits(b.day, 2));
  }
}

=== FILE: geofence.dfy ===
/** The planar geofence of the face-verification route: degree differences are
    treated as Euclidean, scaled by 111320 metres per degree, and the distance
    must be strictly below 50 metres. The square root is avoided by comparing
    squares; `PlanarDistanceCriterion` shows the two comparisons agree. */
module Geofence {
  import opened Wrappers
  import opened Arith

  datatype Coord = Coord(lat: real, lng: real)

  const MetersPerDegree: real := 111320.0
  const ThresholdMeters: real := 50.0

  /** Squared planar distance between two points, in square degrees. */
  function SquaredDegrees(a: Coord, b: Coord): (d2: real)
    ensures d2 >= 0.0
  {
    (a.lat - b.lat) * (a.lat - b.lat) + (a.lng - b.lng) * (a.lng - b.lng)
  }

  /** The distance, scaled to metres, is strictly below the threshold. */
  predicate WithinRadius(observed: Coord, reference: Coord) {
    SquaredDegrees(observed, reference) * (MetersPerDegree * MetersPerDegree) < ThresholdMeters * ThresholdMeters
  }

  /** JavaScript truthiness of a numeric body field: missing and zero are false. */
  predicate Truthy(x: Option<real>) {
    x.Some? && x.value != 0.0
  }

  /** `geolocationVerified` of the face-verification route: checked only when the
      request carries truthy coordinates and the course has a location. */
  function GeolocationVerified(latitude: Option<real>, longitude: Option<real>, course: Option<Coord>): (ok: bool)
    ensures ok ==> latitude.Some? && longitude.Some? && course.Some?
    ensures !Truthy(latitude) || !Truthy(longitude) || course.None? ==> !ok
    ensures ok <==> Truthy(latitude) && Truthy(longitude) && course.Some? &&
                    WithinRadius(Coord(latitude.value, longitude.value), course.value)
  {
    if Truthy(latitude) && Truthy(longitude) && course.Some? then
      WithinRadius(Coord(latitude.value, longitude.value), course.value)
    else false
  }

  /** For non-negative reals, order agrees with the order of their squares. */
  lemma SquaresMonotone(a: real, b: real)
    requires a >= 0.0 && b >= 0.0
    ensures a < b <==> a * a < b * b
  {
    assert b * b - a * a == (b - a) * (b + a);
    if a < b {
      PositiveProduct(b - a, b + a);
    } else if a > b {
      PositiveProduct(a - b, a + b);
      assert a * a - b * b == (a - b) * (a + b);
    }
  }

  /** With `r` the square root of the squared degree distance, the route's test
      `r * 111320 < 50` holds exactly when `WithinRadius` does. */
  lemma PlanarDistanceCriterion(observed: Coord, reference: Coord, r: real)
    requires r >= 0.0 && r * r == SquaredDegrees(observed, reference)
    ensures r * MetersPerDegree < ThresholdMeters <==> WithinRadius(observed, reference)
  {
    var meters := r * MetersPerDegree;
    SquaresMonotone(meters, ThresholdMeters);
    assert meters * meters == (r * r) * (MetersPerDegree * MetersPerDegree);
  }

  /** The route's decision in metres: with `r` the square root of the squared
      degree distance between the reading and the course, the flag is set
      exactly when both coordinates are truthy, the course has a location and
      `r * 111320 < 50`. */
  lemma GeofenceInMetres(latitude: Option<real>, longitude: Option<real>, course: Option<Coord>, r: real)
    requires Truthy(latitude) && Truthy(longitude) && course.Some?
    requires r >= 0.0 && r * r == SquaredDegrees(Coord(latitude.value, longitude.value), course.value)
    ensures GeolocationVerified(latitude, longitude, course) <==> r * MetersPerDegree < ThresholdMeters
  {
    PlanarDistanceCriterion(Coord(latitude.value, longitude.value), course.value, r);
  }

  /** At 50 metres or farther the check fails: the boundary itself is outside. */
  lemma OutsideFails(observed: Coord, reference: Coord, r: real)
    requires r >= 0.0 && r * r == SquaredDegrees(observed, reference)
    requires r * MetersPerDegree >= ThresholdMeters
    ensures !WithinRadius(observed, reference)
  {
    PlanarDistanceCriterion(observed, reference, r);
  }

  /** A reading closer than one that passes also passes. */
  lemma CloserPasses(o1: Coord, o2: Coord, reference: Coord)
    requires WithinRadius(o2, reference)
    requires SquaredDegrees(o1, reference) <= SquaredDegrees(o2, reference)
    ensures WithinRadius(o1, reference)
  {
  }

  /** A student standing at the registered point passes unless a coordinate of
      theirs is exactly zero, which the truthiness test reads as missing. */
  lemma ZeroCoordinateNeverPasses(lat: real, lng: real)
    ensures GeolocationVerified(Some(lat), Some(lng), Some(Coord(lat, lng))) <==> lat != 0.0 && lng != 0.0
  {
  }
}

=== FILE: ledger.dfy ===
/** The attendance collection as a map keyed by the unique index
    (studentId, courseId, date): at most one record per key holds by construction,
    and both writers go through one keyed insert-or-update. */
module Ledger {
  import opened Wrappers
  import opened AttendanceSchema

  type Key = (StudentId, CourseId, string)
  type Ledger = map<Key, Record>

  function KeyOf(r: Record): Key {
    (r.studentId, r.courseId, r.date)
  }

  /** Every record is filed under its own (studentId, courseId, date). */
  predicate Keyed(l: Ledger) {
    forall k :: k in l ==> KeyOf(l[k]) == k
  }

  /** The unique index, stated on the stored records themselves: two entries
      whose records share a triple are the same entry. */
  predicate UniqueTriples(l: Ledger) {
    forall k1, k2 :: k1 in l && k2 in l && KeyOf(l[k1]) == KeyOf(l[k2]) ==> k1 == k2
  }

  /** The paths a writer lists in `findOneAndUpdate`. A missing `confidenceScore`
      means the writer does not list that path. */
  datatype Update = Update(
    status: Status,
    verificationMethod: Method,
    geolocationVerified: bool,
    confidenceScore: Option<real>,
    timestamp: int)

  /** The record after an update: listed paths are replaced, unlisted ones keep
      the earlier record's value, or are absent when the record is new. */
  function Apply(prior: Option<Record>, k: Key, u: Update): (r: Record)
    ensures KeyOf(r) == k
    ensures r.status == u.status && r.verificationMethod == u.verificationMethod
    ensures r.geolocationVerified == u.geolocationVerified && r.timestamp == u.timestamp
    ensures u.confidenceScore.Some? ==> r.confidenceScore == u.confidenceScore
    ensures u.confidenceScore.None? && prior.Some? ==> r.confidenceScore == prior.value.confidenceScore
    ensures u.confidenceScore.None? && prior.None? ==> r.confidenceScore.None?
    ensures r.imageUrl == if prior.Some? then prior.value.imageUrl else None
  {
    var keptScore := if prior.Some? then prior.value.confidenceScore else None;
    var keptImage := if prior.Some? then prior.value.imageUrl else None;
    Record(k.0, k.1, k.2, u.timestamp, u.status, u.verificationMethod, u.geolocationVerified,
           if u.confidenceScore.Some? then u.confidenceScore else keptScore, keptImage)
  }

  /** `findOneAndUpdate({studentId, courseId, date}, update, {upsert: true, new: true})`. */
  function Upsert(l: Ledger, k: Key, u: Update): (l': Ledger)
    ensures l'.Keys == l.Keys + {k}
    ensures KeyOf(l'[k]) == k
    ensures l'[k].status == u.status && l'[k].verificationMethod == u.verificationMethod
    ensures l'[k].geolocationVerified == u.geolocationVerified && l'[k].timestamp == u.timestamp
    ensures u.confidenceScore.Some? ==> l'[k].confidenceScore == u.confidenceScore
    ensures u.confidenceScore.None? ==> l'[k].confidenceScore == (if k in l then l[k].confidenceScore else None)
    ensures l'[k].imageUrl == (if k in l then l[k].imageUrl else None)
    ensures forall k' :: k' in l && k' != k ==> l'[k'] == l[k']
  {
    l[k := Apply(if k in l then Some(l[k]) else None, k, u)]
  }

  /** An upsert adds a record only when the key was new: never two records. */
  lemma UpsertCount(l: Ledger, k: Key, u: Update)
    ensures |Upsert(l, k, u)| == if k in l then |l| else |l| + 1
  {
    var l' := Upsert(l, k, u);
    if k in l {
      assert l'.Keys == l.Keys;
    } else {
      assert l'.Keys == l.Keys + {k};
      assert |l'.Keys| == |l.Keys| + 1;
    }
  }

  /** Upserts keep every record under its own triple. */
  lemma UpsertKeepsKeyed(l: Ledger, k: Key, u: Update)
    requires Keyed(l)
    ensures Keyed(Upsert(l, k, u))
  {
  }

  /** A keyed ledger satisfies the unique index. */
  lemma KeyedIsUnique(l: Ledger)
    requires Keyed(l)
    ensures UniqueTriples(l)
  {
  }

  /** Repeating the same upsert changes nothing more. */
  lemma UpsertIdempotent(l: Ledger, k: Key, u: Update)
    ensures Upsert(Upsert(l, k, u), k, u) == Upsert(l, k, u)
  {
  }

  /** Latest evidence wins: a second update that lists every path (as the face
      verification does) leaves no trace of the first. */
  lemma LatestWins(l: Ledger, k: Key, u1: Update, u2: Update)
    requires u2.confidenceScore.Some?
    ensures Upsert(Upsert(l, k, u1), k, u2) == Upsert(l, k, u2)
  {
  }

  /** A second update that does not list `confidenceScore` (as the manual mark
      does) keeps the score of the first. */
  lemma UnlistedScoreSurvives(l: Ledger, k: Key, u1: Update, u2: Update)
    requires u1.confidenceScore.Some? && u2.confidenceScore.None?
    ensures Upsert(Upsert(l, k, u1), k, u2)[k].confidenceScore == u1.confidenceScore
    ensures Upsert(Upsert(l, k, u1), k, u2)[k].status == u2.status
  {
  }
}

=== FILE: text.dfy ===
/** The few JavaScript string operations the attendance core relies on:
    `indexOf`, `lastIndexOf`, `split(sep)` with a one-character separator,
    `startsWith`, and the code-point order used when strings are compared. */
module Text {
  import opened Wrappers

  /** Index of the first `c` in `s` (`s.indexOf(c)`), missing when `c` does not occur. */
  function IndexOf(s: string, c: char): (r: Option<nat>)
    ensures r.Some? ==> r.value < |s| && s[r.value] == c && c !in s[..r.value]
    ensures r.None? <==> c !in s
  {
    if |s| == 0 then None
    else if s[0] == c then Some(0)
    else
      match IndexOf(s[1..], c)
      case None => None
      case Some(i) =>
        assert s[..i + 1] == [s[0]] + s[1..][..i];
        Some(i + 1)
  }

  /** Index of the last `c` in `s` (`s.lastIndexOf(c)`), missing when `c` does not occur. */
  function LastIndexOf(s: string, c: char): (r: Option<nat>)
    ensures r.Some? ==> r.value < |s| && s[r.value] == c && c !in s[r.value + 1..]
    ensures r.None? <==> c !in s
  {
    if |s| == 0 then None
    else if s[|s| - 1] == c then Some(|s| - 1)
    else
      var init := s[..|s| - 1];
      assert s == init + [s[|s| - 1]];
      match LastIndexOf(init, c)
      case None => None
      case Some(i) =>
        assert s[i + 1..] == init[i + 1..] + [s[|s| - 1]];
        Some(i)
  }

  /** `s.split(sep)`: the maximal pieces of `s` between occurrences of `sep`.
      There is always at least one piece, and none contains `sep`. */
  function Split(s: string, sep: char): (parts: seq<string>)
    ensures |parts| >= 1
    ensures forall i :: 0 <= i < |parts| ==> sep !in parts[i]
    decreases |s|
  {
    match IndexOf(s, sep)
    case None => [s]
    case Some(i) => [s[..i]] + Split(s[i + 1..], sep)
  }

  /** `parts.join(sep)`, the inverse of `Split`. */
  function Join(parts: seq<string>, sep: char): string
    requires |parts| >= 1
  {
    if |parts| == 1 then parts[0] else parts[0] + [sep] + Join(parts[1..], sep)
  }

  /** `s.split(sep)[n]`: the `n`-th piece, missing (`undefined`) when there are fewer pieces. */
  function Segment(s: string, sep: char, n: nat): Option<string> {
    var parts := Split(s, sep);
    if n < |parts| then Some(parts[n]) else None
  }

  /** The text of `s` before its first `sep`, or all of `s` when there is none. */
  function UpTo(s: string, sep: char): string {
    match IndexOf(s, sep)
    case None => s
    case Some(i) => s[..i]
  }

  /** `s.startsWith(p)`. */
  predicate StartsWith(s: string, p: string) {
    |p| <= |s| && s[..|p|] == p
  }

  /** `a <= b` on strings: lexicographic order on code points, a prefix first. */
  predicate LessOrEqual(a: string, b: string) {
    if |a| == 0 then true
    else if |b| == 0 then false
    else if a[0] != b[0] then a[0] < b[0]
    else LessOrEqual(a[1..], b[1..])
  }

  /** Joining a first piece in front of further pieces puts one separator between. */
  lemma JoinCons(p: string, rest: seq<string>, sep: char)
    requires |rest| >= 1
    ensures Join([p] + rest, sep) == p + [sep] + Join(rest, sep)
  {
    assert ([p] + rest)[1..] == rest;
  }

  /** Splitting and joining again gives back the original text. */
  lemma {:induction false} JoinSplit(s: string, sep: char)
    ensures Join(Split(s, sep), sep) == s
    decreases |s|
  {
    match IndexOf(s, sep)
    case None =>
    case Some(i) =>
      var tail := s[i + 1..];
      assert Split(s, sep) == [s[..i]] + Split(tail, sep);
      JoinCons(s[..i], Split(tail, sep), sep);
      JoinSplit(tail, sep);
      assert s == s[..i] + [sep] + tail;
  }

  /** The first occurrence of `sep` in `a + [sep] + b` is right after `a` when `a` is free of it. */
  lemma IndexOfAfterFreePrefix(a: string, sep: char, b: string)
    requires sep !in a
    ensures IndexOf(a + [sep] + b, sep) == Some(|a|)
  {
    var s := a + [sep] + b;
    assert s[|a|] == sep;
  }

  /** Joining pieces that are free of `sep` and splitting again gives back the pieces. */
  lemma {:induction false} SplitJoin(parts: seq<string>, sep: char)
    requires |parts| >= 1
    requires forall i :: 0 <= i < |parts| ==> sep !in parts[i]
    ensures Split(Join(parts, sep), sep) == parts
  {
    if |parts| == 1 {
      assert IndexOf(parts[0], sep).None?;
    } else {
      var rest := Join(parts[1..], sep);
      var s := parts[0] + [sep] + rest;
      assert Join(parts, sep) == s;
      IndexOfAfterFreePrefix(parts[0], sep, rest);
      assert s[..|parts[0]|] == parts[0];
      assert s[|parts[0]| + 1..] == rest;
      assert Split(s, sep) == [parts[0]] + Split(rest, sep);
      SplitJoin(parts[1..], sep);
      assert parts == [parts[0]] + parts[1..];
    }
  }

  /** The first piece is the text before the first separator. */
  lemma SplitFirst(s: string, sep: char)
    ensures Split(s, sep)[0] == UpTo(s, sep)
  {
  }

  /** A second piece exists exactly when the separator occurs, and it is the text
      from just after the first separator up to the next one (or the end). */
  lemma {:induction false} SecondSegment(s: string, sep: char)
    ensures Segment(s, sep, 1).Some? <==> sep in s
    ensures sep in s ==> Segment(s, sep, 1) == Some(UpTo(s[IndexOf(s, sep).value + 1..], sep))
  {
    match IndexOf(s, sep)
    case None =>
    case Some(i) =>
      SplitFirst(s[i + 1..], sep);
  }

  /** `UpTo` describes its result without reference to `IndexOf`: a prefix of `s`
      free of `sep`, followed in `s` by `sep` or by nothing. */
  lemma UpToIsLongestFreePrefix(s: string, sep: char)
    ensures var u := UpTo(s, sep);
      StartsWith(s, u) && sep !in u && (|u| == |s| || s[|u|] == sep)
  {
  }

  /** `LessOrEqual` is reflexive. */
  lemma {:induction false} LessOrEqualReflexive(a: string)
    ensures LessOrEqual(a, a)
    decreases |a|
  {
    if |a| > 0 {
      LessOrEqualReflexive(a[1..]);
    }
  }

  /** Comparing two texts whose first parts have the same length: the first parts
      decide unless they are equal, in which case the rests decide. */
  lemma {:induction false} LessOrEqualConcat(x: string, y: string, x': string, y': string)
    requires |x| == |x'|
    ensures LessOrEqual(x + y, x' + y') <==>
      if x == x' then LessOrEqual(y, y') else LessOrEqual(x, x')
    ensures x + y == x' + y' <==> x == x' && y == y'
    decreases |x|
  {
    if |x| == 0 {
      assert x + y == y && x' + y' == y';
    } else {
      assert (x + y)[1..] == x[1..] + y;
      assert (x' + y')[1..] == x'[1..] + y';
      LessOrEqualConcat(x[1..], y, x'[1..], y');
      if x[0] == x'[0] && x[1..] == x'[1..] {
        assert x == [x[0]] + x[1..] && x' == [x'[0]] + x'[1..];
      }
      if x + y == x' + y' {
        assert x == (x + y)[..|x|] && x' == (x' + y')[..|x|];
      }
    }
  }
}

=== FILE: verdicts.dfy ===
/** What both face-verification adapters share: the verdict shape, the parsed
    reply as a record of optional fields, the `??` defaulting, and the fixed
    verdict every failure collapses into. The model call and `JSON.parse` are
    opaque; their outcomes are values of `CallOutcome` and `JsonValue`. */
module Verdicts {
  import opened Wrappers

  datatype Verdict = Verdict(verified: bool, confidence: real, message: string, detectedName: Option<string>)

  /** The fields of a parsed reply object; `None` is a missing or `null` field. */
  datatype Fields = Fields(verified: Option<bool>, confidence: Option<real>, message: Option<string>, detectedName: Option<string>)

  const NoFields: Fields := Fields(None, None, None, None)

  /** What `JSON.parse` returned: `null`, an object, or any other value
      (number, string, boolean, array), on which every field reads as missing. */
  datatype JsonValue = JsonNull | JsonObject(fields: Fields) | JsonOther

  /** The outcome of the generative-model call: it threw, or it returned text. */
  datatype CallOutcome = CallFailed | CallReturned(text: string)

  const UnavailableMessage: string := "AI service unavailable. Please retry."
  const DefaultMessage: string := "Analysis complete"

  /** The verdict every caught failure becomes. */
  function Unavailable(): (v: Verdict)
    ensures !v.verified && v.confidence == 0.0 && v.detectedName.None?
  {
    Verdict(false, 0.0, UnavailableMessage, None)
  }

  /** `verified ?? false`, `confidence ?? 0`, `message ?? 'Analysis complete'`,
      `detectedName` as is. Supplied values pass through unchanged: the
      confidence is not clamped. */
  function WithDefaults(f: Fields): (v: Verdict)
    ensures v.verified <==> f.verified == Some(true)
    ensures f.confidence.None? ==> v.confidence == 0.0
    ensures f.confidence.Some? ==> v.confidence == f.confidence.value
    ensures f.message.None? ==> v.message == DefaultMessage
    ensures f.message.Some? ==> v.message == f.message.value
    ensures v.detectedName == f.detectedName
  {
    Verdict(f.verified.GetOr(false), f.confidence.GetOr(0.0), f.message.GetOr(DefaultMessage), f.detectedName)
  }

  /** A verdict written out with every field present. */
  function FieldsOf(v: Verdict): Fields {
    Fields(Some(v.verified), Some(v.confidence), Some(v.message), v.detectedName)
  }

  /** Defaulting never overrides a supplied field: a fully supplied reply comes
      back as itself. */
  lemma DefaultsKeepSuppliedFields(v: Verdict)
    ensures WithDefaults(FieldsOf(v)) == v
  {
  }

  /** A reply with no usable fields reads as unverified with zero confidence. */
  lemma DefaultsForEmptyReply()
    ensures WithDefaults(NoFields) == Verdict(false, 0.0, DefaultMessage, None)
  {
  }

  /** Reading the fields of what `JSON.parse` gave: a parse that threw, or a
      property read on `null`, lands in the catch block. */
  function ReadReply(parsed: Option<JsonValue>): (v: Verdict)
    ensures parsed.None? || parsed == Some(JsonNull) ==> v == Unavailable()
    ensures parsed.Some? && parsed.value.JsonObject? ==> v == WithDefaults(parsed.value.fields)
    ensures parsed == Some(JsonOther) ==> v == WithDefaults(NoFields)
    ensures v.verified ==> parsed.Some? && parsed.value.JsonObject? && parsed.value.fields.verified == Some(true)
  {
    match parsed
    case None => Unavailable()
    case Some(JsonNull) => Unavailable()
    case Some(JsonObject(f)) => WithDefaults(f)
    case Some(JsonOther) => WithDefaults(NoFields)
  }

  /** A reply that only says `verified: true` is accepted by the verifier but
      carries confidence 0, below any acceptance floor. */
  lemma BareVerifiedReply()
    ensures var v := ReadReply(Some(JsonObject(Fields(Some(true), None, None, None))));
      v.verified && v.confidence == 0.0 && v.message == DefaultMessage
  {
  }
}

=== FILE: wrappers.dfy ===
/** The optional-value and result datatypes shared by every module of the model. */
module Wrappers {

  /** A value that may be missing: JavaScript's `undefined`/`null` on one side, a value on the other. */
  datatype Option<+T> = None | Some(value: T) {

    /** The value, or `default` when missing (the `??` operator). */
    function GetOr(default: T): T {
      match this
      case Some(v) => v
      case None => default
    }
  }

  /** Either a value or an error description. */
  datatype Result<+R, +E> = Ok(value: R) | Err(error: E)
}
